=== FILE: README.md ===
# Metro route planner: heap, station graph and shortest paths in Dafny

This project models the routing engine of a metro route planner in Dafny. It covers two components:

- an indexed binary min-heap of `(distance, vertex)` entries, with a `positions` table from vertex to slot;
- the station graph that uses the heap. The graph is built by `addStation` and `addEdge`, queried by name and by index, and answers `shortestPath` with Dijkstra's algorithm. The search stops early at the destination and rebuilds the route from the parent array.

The model also covers the fare table and the travel-time estimate.

Modules:

- `Results` (`results.dfy`): the `Result` type. Operations that throw `std::runtime_error` return it instead.
- `MinHeaps` (`heap.dfy`): the heap as an immutable value `MinHeap(entries, positions)`, where `-1` marks an absent vertex.
  - Two invariants are stated: the two-way slot/position link (`Consistent`) and heap order (`HeapOrdered`).
  - `Contents` is the abstract view: the map from each live vertex to its key.
  - Each operation is specified against `Contents`, and each states when its error result occurs.
- `Graphs` (`graph.dfy`): stations, adjacency lists of `Edge(dest, weight)`, the name table, the lookups, `calculateFare` and `estimateTravelTime`. It also proves that a network built by `addStation` and `addEdge` stores every connection in both directions.
- `Walks` (`walks.dfy`): walks through the network and their lengths. This is the reference notion of route against which the search is judged.
- `ShortestPaths` (`dijkstra.dfy`): `dijkstra`, `printPath` and `shortestPath`.
  - The search carries ghost state: the set of settled stations, the order they were settled in, and the edge distance that gave each station its parent.
  - From that state it proves that a route, when one is returned, is a walk from the start to the destination whose length is the returned distance and which no walk beats.
  - When no route is returned, it proves that no walk reaches the destination.
  - Because connections are stored both ways, the distance between two stations is the same in both directions.

The C++ `INT_MAX` "not reached" value is a separate `Infinite` case of `Dist`. The result still reports `IntMax` (2147483647) as the distance of an unreachable destination, as the C++ program does. The two sentinels are kept apart:

- `UnknownStation`, which is `(-1, [])`, for an unknown name;
- `(IntMax, [])` for an unreachable destination.

## Model

The query functions `MinHeaps.IsEmpty`, `MinHeaps.Contains`, `MinHeaps.GetDistance` and `Graphs.HasStation` carry no contract of their own. What they answer is stated by the rows of `MinHeaps.IsEmptyIffNoVertex`, `MinHeaps.ContainsIffStored` and `Graphs.HasStationIffListed`.

| member | source | states |
|---|---|---|
| `MinHeaps.NewHeap` | Heap.cpp:5-7 | A new heap has no entries, one absent position per vertex 0 .. maxSize-1, and so holds no vertex. |
| `MinHeaps.Parent` | Heap.cpp:10-12 | The parent of slot 0 is 0 (C++ division truncates toward zero). Any other slot is the left or right child of a strictly smaller parent. |
| `MinHeaps.LeftChild` | Heap.cpp:14-16 | 2i+1 is an odd slot whose parent is i. |
| `MinHeaps.RightChild` | Heap.cpp:18-20 | 2i+2 is an even non-root slot whose parent is i. |
| `MinHeaps.ChildrenOfParent` | Heap.cpp:10-20 | The slots whose parent is i are exactly leftChild(i) and rightChild(i). |
| `MinHeaps.IsEmptyIffNoVertex` | Heap.cpp:23-25 | `size == 0` holds exactly when no vertex is contained, i.e. the abstract contents are empty. |
| `MinHeaps.ContainsIffStored` | Heap.cpp:28-38 | A vertex is contained (out-of-range vertices never are) exactly when some slot holds an entry for it. `getDistance` then returns that entry's key; otherwise it returns INT_MAX. |
| `MinHeaps.RootIsMin` | Heap.cpp:112-113 | In an ordered heap the root's key is no larger than the key in any slot. |
| `MinHeaps.Swap` | Heap.cpp:54-58 | Swapping two slots and then rewriting the positions of the two moved vertices keeps the slot/position link and changes no vertex's key. |
| `MinHeaps.SiftUp` | Heap.cpp:92-102 | The sift-up loop keeps the slot/position link and the contents. It leaves the heap ordered when every parent-child edge except the one above slot i was in order and the parent of i is no larger than the children of i. This is the state after the key at slot i of an ordered heap went down. |
| `MinHeaps.SwapUpKeepsOrder` | Heap.cpp:73-83 | When the key at slot j is smaller than its parent's, one sift-up swap turns "in order except on the edge above slot j, with j's parent no larger than j's children" into the same condition at j's parent. |
| `MinHeaps.Heapify` | Heap.cpp:41-63 | heapify(i) keeps the slot/position link, the size and the contents. It leaves the heap ordered when every parent-child edge except those below slot i was in order and the parent of i is no larger than the children of i. This is the state after the key at slot i of an ordered heap went up. extractMin calls it only at slot 0, which has no parent, so there the second condition is vacuous. |
| `MinHeaps.SmallestOfFamily` | Heap.cpp:42-50 | The slot heapify picks holds the least key among i and its children, and is a child of i unless it is i. |
| `MinHeaps.SwapDownKeepsOrder` | Heap.cpp:52-61 | When the chosen child holds the least key among i's children and that key is smaller than i's, one heapify swap turns "in order except on the edges below slot i, with i's parent no larger than i's children" into the same condition at the chosen child. |
| `MinHeaps.Insert` | Heap.cpp:66-104 | After insert(v, d), v is contained with key d and every other vertex keeps its key. The size grows by one exactly when v was absent. Heap order is kept when v was absent or d is no larger than v's old key, since a present vertex is only sifted up. |
| `MinHeaps.SetKey` | Heap.cpp:69-70 | Overwriting the key in a slot changes only that vertex's key. On an ordered heap with a key that did not go up, only the edge above that slot can be out of order. |
| `MinHeaps.ExtractMin` | Heap.cpp:107-128 | Fails with "Heap is empty" exactly when the size is 0. Otherwise it returns a live entry with its own key. That vertex becomes absent, every other vertex keeps its key, and the size drops by one. On an ordered heap the returned key is the least and the result is ordered. |
| `MinHeaps.ExtractPositions` | Heap.cpp:116-120 | Moving the last entry to the root and shrinking makes the old root absent. Every other vertex keeps its key and stays linked to its slot. |
| `MinHeaps.ExtractKeepsConsistent` | Heap.cpp:116-120 | The heap after the move and before sifting keeps the slot/position link. |
| `MinHeaps.ExtractKeepsContents` | Heap.cpp:116-120 | The heap after the move holds the old contents without the old root's vertex. |
| `MinHeaps.ExtractKeepsOrder` | Heap.cpp:116-124 | On an ordered heap, the move leaves only the root's edges to its children out of order, which is what heapify(0) expects. |
| `MinHeaps.DecreaseKey` | Heap.cpp:131-157 | Fails with "Vertex not in heap" for an absent vertex. Fails with a "greater than current" error for a larger key; an equal key is accepted. On success the vertex has the new key, nothing else changes, the size is the same, and order is kept. |
| `Graphs.EmptyGraph` | Graph.cpp:35 | A new graph has no stations, knows no name, and is trivially undirected. |
| `Graphs.AddStation` | Graph.cpp:37-42 | The station is appended at index numVertices with an empty adjacency list, and earlier stations and lists are untouched. The name now maps to the new index, also when it was already known. Every other name keeps its index. |
| `Graphs.AddEdge` | Graph.cpp:44-57 | With an unknown endpoint nothing changes. Otherwise Edge(destIndex, d) is appended to the source's list and Edge(srcIndex, d) to the destination's list; a self-loop gets both. Every other list and the station table are unchanged, and all entries stay valid station indices. |
| `Graphs.AddStationKeepsUndirected` | Graph.cpp:37-42 | Adding a station keeps every connection stored both ways: the new empty list names no one, and no old list names the new station. |
| `Graphs.AddEdgeKeepsUndirected` | Graph.cpp:54-56 | Adding a connection keeps every connection stored both ways. For all i, j and d, station i lists (j, d) as often as j lists (i, d), including for a self-loop. |
| `Graphs.AddEdgeEntries` | Graph.cpp:51-56 | As a multiset, addEdge adds Edge(destIndex, d) to the source's list and Edge(srcIndex, d) to the destination's list (both to one list for a self-loop), and nothing to any other list. |
| `Graphs.MirroredAdditions` | Graph.cpp:54-56 | Adding an entry together with its mirror image keeps the adjacency lists symmetric. |
| `Graphs.HasStationIffListed` | Graph.cpp:59-61 | A name is known exactly when it appears among the listed station names. |
| `Graphs.StationByName` | Graph.cpp:63-76 | For a known name, the station at the index the name maps to has that name, and no later station has it. For an unknown name, the lookup at the returned -1 gives the empty station ("", ""). |
| `Graphs.GetStationIndex` | Graph.cpp:63-69 | Returns -1 exactly when the name is unknown. Otherwise it returns the index of the last station added under that name. |
| `Graphs.GetStation` | Graph.cpp:71-76 | In-range indices give that station; any other index gives the empty station ("", ""). |
| `Graphs.GetAllStations` | Graph.cpp:78-84 | One name per station, in insertion order. |
| `Graphs.AllStationsAreKnown` | Graph.cpp:78-84 | Every listed name is a known station. Adding a station appends exactly its name to the listing. |
| `Graphs.IndexIsLastOccurrence` | Graph.cpp:39 | The index of a name is the position of its last occurrence in the listing of names (last write wins). |
| `Graphs.CalculateFare` | Graph.cpp:145-153 | The fare is a multiple of 10 between 0 and 60. It is 0 exactly for distances up to 0, and 60 exactly beyond 32 km. |
| `Graphs.FareMatchesTable` | Graph.cpp:145-153 | The fare equals a lookup in the bracket table (0,0), (2,10), (5,20), (12,30), (21,40), (32,50), else 60, with each bound belonging to the lower bracket. |
| `Graphs.FareIsMonotone` | Graph.cpp:145-153 | A longer trip never costs less. |
| `Graphs.EstimateTravelTime` | Graph.cpp:155-158 | The result is 1.5·distance + 2·changes rounded to the nearest integer, with halves rounded away from zero as `std::round` does. |
| `ShortestPaths.PrintPath` | Graph.cpp:86-93 | The chain of parents ending at v, oldest first: each element is the parent of the next. It stops at a station without a parent unless the step bound is used up. |
| `ShortestPaths.Dijkstra` | Graph.cpp:95-143 | Suppose distances are non-negative. If the destination is reachable, the result is a walk from src to dest whose distances add up to the returned distance, and no walk from src to dest is shorter. Otherwise the path is empty and the distance is INT_MAX. When src == dest the result is (0, [src]). The path never visits a station twice, even across zero-distance connections. |
| `ShortestPaths.SameDistanceBothWays` | Graph.cpp:54-56 | Because connections are stored both ways, shortest routes from a to b and from b to a have the same distance, and one exists exactly when the other does. |
| `ShortestPaths.RouteReversed` | Graph.cpp:54-56 | A route from a to b taken backwards is a route from b to a, so a shortest route from b to a exists and is no longer. |
| `Walks.ReverseWalk` | Graph.cpp:54-56 | In a network whose connections are stored both ways, a walk taken backwards is a walk of the same length. |
| `ShortestPaths.InitialState` | Graph.cpp:96-102 | Before the first round only the start station is reached, at 0 and without a parent, and it is the only vertex in the heap. |
| `ShortestPaths.SearchStep` | Graph.cpp:105-134 | One extraction keeps the search invariant. It either stops at the destination with a shortest distance, or settles one more station. |
| `ShortestPaths.SettleStep` | Graph.cpp:107-113 | Settling the extracted station (not the destination) keeps the invariant, with its key as the new lower bound on the heap. |
| `ShortestPaths.ExtractedIsShortest` | Graph.cpp:107-113 | The station with the least key in the heap is at most as far as any walk from the start: every walk leaves the settled stations through a station in the heap. |
| `ShortestPaths.RelaxEdges` | Graph.cpp:116-133 | After relaxing every adjacency entry of the settled station, each entry leads to a reached station within the station's distance plus the entry's distance. The search invariant is kept. |
| `ShortestPaths.RelaxEdge` | Graph.cpp:117-132 | Relaxing one entry keeps the invariant. The decreaseKey and insert calls it makes never fail, since the key is strictly smaller and insert is only used for absent vertices. |
| `ShortestPaths.RelaxStep` | Graph.cpp:121-131 | A strictly shorter distance through u gives the neighbour its new distance, u as parent and the new key in the heap. The neighbour is never a settled station. |
| `ShortestPaths.RelaxKeepsParents` | Graph.cpp:123-124 | After the update the neighbour lies one adjacency entry beyond its settled parent, at the parent's distance plus that entry's distance. |
| `ShortestPaths.RelaxKeepsHeap` | Graph.cpp:127-131 | After decreaseKey or insert, every heap key is the tentative distance of an unsettled station, and every reached unsettled station is in the heap. |
| `ShortestPaths.LoweringKeepsRelaxed` | Graph.cpp:121-123 | Lowering an unsettled station's distance keeps every settled station's relaxed entries relaxed, and relaxes the current entry. |
| `ShortestPaths.BuildRoute` | Graph.cpp:136-142 | The path is rebuilt only for a reached destination. The result meets the shortest-route promise above and visits no station twice. |
| `ShortestPaths.NothingBeyondSettled` | Graph.cpp:105 | When the heap runs empty before the destination is extracted, the destination was never reached and no walk leads to it. |
| `ShortestPaths.RouteIsWalk` | Graph.cpp:136-142 | The rebuilt path of a reached destination starts at the start station and ends at the destination, and is a walk whose length is the destination's distance. |
| `ShortestPaths.ChainStartsAtSource` | Graph.cpp:86-93 | The parent chain of a reached station ends, going back, at the start station. |
| `ShortestPaths.ChainRanks` | Graph.cpp:124 | Position i of a parent chain whose stations are settled has rank at least i. So the chain is shorter than the number of stations. |
| `ShortestPaths.ChainLength` | Graph.cpp:123-124 | Along a parent chain from the start, the prefix sums of the recorded distances are the stations' distances. |
| `ShortestPaths.RanksIncrease` | Graph.cpp:105-124 | Ranks strictly increase along a chain of settled stations linked by parents: a station is set as a parent only while it is being expanded, so it was settled before its child. |
| `ShortestPaths.ChainDistinct` | Graph.cpp:86-93 | The parent chain printed for a reached destination visits no station twice. |
| `ShortestPaths.ShortestPath` | Graph.cpp:160-169 | (-1, []) without searching when either name is unknown; otherwise the shortest route between the two stations' indices, and exactly (0, [index]) when both names are the same known name. The path never visits a station twice. |

## Left out

- Main.cpp: the menu loop, console I/O, the built-in station data set and the line-change heuristic are user interface.
- `displayMap` (Graph.cpp:171-185) and the `std::cerr` message in `addEdge` (Graph.cpp:47) only produce output. The failed `addEdge` is modelled as "no change".
- The accessors of `Station` and `Edge` (Graph.cpp:10-32) are the fields of the datatypes.
- C++ `int` overflow is not modelled: distances and keys are mathematical integers.
  - In the C++ program, a tentative distance that reaches INT_MAX or more would be compared numerically with the INT_MAX marker.
  - Here "not reached" is the separate value `Infinite`.
- The heap's `size` field is the length of `entries`; the C++ program keeps the two equal.
- The heap and the graph are values: each operation returns the new value instead of mutating the object.
  - "decreaseKey fails without mutating state" is therefore that the failure carries no new heap.
- `MinHeaps.Insert`, `MinHeaps.DecreaseKey` and `MinHeaps.ExtractMin` require the position table to be in range and consistent. The C++ program relies on the same for its indexing.
- `MinHeaps.Insert`, `MinHeaps.DecreaseKey` and `MinHeaps.ExtractMin` promise heap order only for a heap that was ordered before the call. The C++ program does the same, and insert of a present vertex with a larger key only sifts up, so it may leave the heap unordered.
- `ShortestPaths.Dijkstra` requires every adjacency distance to be non-negative. `addEdge` does not check this; with negative distances the search is not a shortest-path search.
- `ShortestPaths.PrintPath` walks back at most `fuel` steps; the search passes the number of stations. The C++ program recurses until it meets a station without a parent; the model proves the bound is never reached.
- `Graphs.EstimateTravelTime` is computed exactly in half-minutes (3·distance + 4·changes). Double-precision rounding and the cast back to `int` are not modelled.
- `std::unordered_map` hashing is a Dafny `map<string, int>`, and `std::list` adjacency lists are sequences.

=== FILE: dijkstra.dfy ===
/** Dijkstra's single-source search over the metro network, with early exit
    at the destination and reconstruction of the route from the parent
    array, and the name-based `shortestPath` query built on it. */
module ShortestPaths {
  import opened Results
  import opened Graphs
  import opened Walks
  import opened MinHeaps

  /** A tentative distance. The C++ program uses INT_MAX for "not reached"; here
      it is a separate value, so no finite distance can be mistaken for it. */
  datatype Dist = Fin(km: int) | Infinite

  /** The result of a query: a total distance and the stations of the route,
      in order, by index. */
  datatype Route = Route(distance: int, path: seq<int>)

  /** The parent of a station no search reached, and of the start station. */
  const NoParent: int := -1

  /** What shortestPath returns when a station name is unknown. */
  const UnknownStation: Route := Route(-1, [])

  /** What the search promises: either an empty path with distance IntMax,
      and the destination is unreachable; or a walk from src to dest whose
      length is the returned distance and which no walk from src to dest
      beats. */
  ghost predicate ShortestRoute(g: Graph, src: int, dest: int, r: Route) {
    if r.path == [] then
      r.distance == IntMax && !Reachable(g, src, dest)
    else
      && r.path[0] == src && r.path[|r.path| - 1] == dest
      && (exists ws :: IsWalk(g, r.path, ws) && Sum(ws) == r.distance)
      && forall vs, ws :: WalkFromTo(g, vs, ws, src, dest) ==> r.distance <= Sum(ws)
  }

  /** A path that visits no station twice. */
  predicate SimplePath(p: seq<int>) {
    forall i, j :: 0 <= i < j < |p| ==> p[i] != p[j]
  }

  /** In a network built by addStation and addEdge every connection is
      stored both ways, so the search reports the same distance in both
      directions, and a route exists one way exactly when it exists the
      other way. */
  lemma SameDistanceBothWays(g: Graph, a: int, b: int, r1: Route, r2: Route)
    requires Undirected(g.adjacency)
    requires ShortestRoute(g, a, b, r1) && ShortestRoute(g, b, a, r2)
    ensures r1.distance == r2.distance
    ensures r1.path == [] <==> r2.path == []
  {
    if r1.path != [] {
      RouteReversed(g, a, b, r1, r2);
    }
    if r2.path != [] {
      RouteReversed(g, b, a, r2, r1);
    }
  }

  /** A route from a to b taken backwards bounds every route from b to a. */
  lemma RouteReversed(g: Graph, a: int, b: int, r1: Route, r2: Route)
    requires Undirected(g.adjacency)
    requires ShortestRoute(g, a, b, r1) && ShortestRoute(g, b, a, r2)
    requires r1.path != []
    ensures r2.path != [] && r2.distance <= r1.distance
  {
    var ws :| IsWalk(g, r1.path, ws) && Sum(ws) == r1.distance;
    ReverseWalk(g, r1.path, ws);
    var rvs := Reverse(r1.path);
    assert WalkFromTo(g, rvs, Reverse(ws), b, a);
  }

  /* ----------------------------------------------------------------------
     Path reconstruction
     ---------------------------------------------------------------------- */

  ghost predicate ParentsInRange(parent: seq<int>) {
    forall u :: 0 <= u < |parent| ==> NoParent <= parent[u] < |parent|
  }

  /** printPath: the chain of parents ending at v, oldest first. The C++ program
      recurses until it meets a station without a parent; here the walk
      takes at most `fuel` steps back, and the search passes the number of
      stations, which it never exhausts. */
  function PrintPath(parent: seq<int>, v: int, fuel: nat): (p: seq<int>)
    requires 0 <= v < |parent| && ParentsInRange(parent)
    ensures 1 <= |p| <= fuel + 1 && p[|p| - 1] == v
    ensures forall i :: 0 <= i < |p| ==> 0 <= p[i] < |parent|
    ensures forall i :: 0 < i < |p| ==> parent[p[i]] == p[i - 1]
    ensures parent[p[0]] == NoParent || |p| == fuel + 1
    decreases fuel
  {
    if parent[v] == NoParent || fuel == 0 then [v]
    else PrintPath(parent, parent[v], fuel - 1) + [v]
  }

  /* ----------------------------------------------------------------------
     The state of the search
     ---------------------------------------------------------------------- */

  /** Every settled station x has had all entries of its adjacency list
      relaxed up to index `upto`: each neighbour is reached and is no further
      than x plus the connecting distance. */
  ghost predicate Relaxed(g: Graph, dist: seq<Dist>, x: int, upto: int) {
    && 0 <= x < |g.adjacency| && x < |dist| && dist[x].Fin?
    && 0 <= upto <= |g.adjacency[x]|
    && forall j :: 0 <= j < upto ==>
         var e := g.adjacency[x][j];
         0 <= e.dest < |dist| && dist[e.dest].Fin? && dist[e.dest].km <= dist[x].km + e.weight
  }

  /** What the search needs of the network: one adjacency list per station,
      every entry naming a station, and no negative distance. */
  ghost predicate SearchableGraph(g: Graph) {
    |g.adjacency| == |g.stations| && EdgesInRange(g.adjacency) && NonNegativeWeights(g)
  }

  /** The fixed shape of the state: one slot per station everywhere. */
  ghost predicate Shaped(g: Graph, dist: seq<Dist>, parent: seq<int>, pw: seq<int>, heap: MinHeap) {
    var n := |g.stations|;
    && SearchableGraph(g)
    && |dist| == n && |parent| == n && |pw| == n
    && Valid(heap) && |heap.positions| == n
  }

  /** The settled stations S are reached, no further than `floor`, ranked
      0 .. |S|-1 in the order they were settled; the destination is not
      among them. */
  ghost predicate SettledFacts(n: int, dest: int, dist: seq<Dist>, rank: seq<int>, S: set<int>, floor: int)
    requires |dist| == n && |rank| == n
  {
    && 0 <= dest < n && dest !in S && |S| < n
    && forall x :: x in S ==>
         0 <= x < n && dist[x].Fin? && dist[x].km <= floor && 0 <= rank[x] < |S|
  }

  /** The start station is at distance 0 without a parent; every other
      station has a parent exactly when it is reached, the parent is
      settled, and the station lies one adjacency entry (of distance pw[v])
      beyond its parent. A settled station was settled after its parent. */
  ghost predicate ParentFacts(g: Graph, src: int, dist: seq<Dist>, parent: seq<int>, pw: seq<int>,
                              rank: seq<int>, S: set<int>)
    requires |dist| == |g.stations| == |g.adjacency| && |parent| == |dist| && |pw| == |dist|
    requires |rank| == |dist|
  {
    var n := |dist|;
    && 0 <= src < n && dist[src] == Fin(0) && parent[src] == NoParent
    && forall v :: 0 <= v < n ==>
         && (dist[v].Fin? ==> dist[v].km >= 0)
         && (v != src ==> (parent[v] == NoParent <==> dist[v].Infinite?))
         && (parent[v] != NoParent ==>
               && 0 <= parent[v] < n && parent[v] in S && dist[parent[v]].Fin?
               && Edge(v, pw[v]) in g.adjacency[parent[v]]
               && dist[v].km == dist[parent[v]].km + pw[v]
               && (v in S ==> rank[parent[v]] < rank[v]))
  }

  /** Every station in the heap is unsettled, with its tentative distance as
      key, and no key is below `floor`. */
  ghost predicate HeapFacts(heap: MinHeap, dist: seq<Dist>, S: set<int>, floor: int)
    requires Consistent(heap)
  {
    forall v :: v in Contents(heap) ==>
      0 <= v < |dist| && v !in S && dist[v] == Fin(Contents(heap)[v]) && floor <= Contents(heap)[v]
  }

  /** Every reached but unsettled station is in the heap. */
  ghost predicate Frontier(heap: MinHeap, dist: seq<Dist>, S: set<int>)
    requires Consistent(heap)
  {
    forall v :: 0 <= v < |dist| && dist[v].Fin? && v !in S ==> v in Contents(heap)
  }

  /** Every adjacency entry of x has been relaxed. */
  ghost predicate FullyRelaxed(g: Graph, dist: seq<Dist>, x: int) {
    0 <= x < |g.adjacency| && Relaxed(g, dist, x, |g.adjacency[x]|)
  }

  ghost predicate AllRelaxed(g: Graph, dist: seq<Dist>, S: set<int>) {
    forall x :: x in S ==> FullyRelaxed(g, dist, x)
  }

  /** The loop invariant of the search, short of the frontier. */
  ghost predicate Searching(g: Graph, src: int, dest: int, dist: seq<Dist>, parent: seq<int>,
                            pw: seq<int>, rank: seq<int>, S: set<int>, floor: int, heap: MinHeap)
  {
    && Shaped(g, dist, parent, pw, heap) && |rank| == |dist|
    && SettledFacts(|dist|, dest, dist, rank, S, floor)
    && ParentFacts(g, src, dist, parent, pw, rank, S)
    && HeapFacts(heap, dist, S, floor)
  }

  /* ----------------------------------------------------------------------
     The search
     ---------------------------------------------------------------------- */

  /** dijkstra(src, dest). The C++ program leaves the loop with `break` when the
      destination is extracted; here `reached` records that. */
  method Dijkstra(g: Graph, src: int, dest: int) returns (r: Route)
    requires WellFormed(g) && NonNegativeWeights(g)
    requires 0 <= src < NumVertices(g) && 0 <= dest < NumVertices(g)
    ensures ShortestRoute(g, src, dest, r)
    ensures SimplePath(r.path)
    ensures src == dest ==> r == Route(0, [src])
  {
    var n := NumVertices(g);
    var dist := seq(n, _ => Infinite)[src := Fin(0)];
    var parent := seq(n, _ => NoParent);
    ghost var pw := seq(n, _ => 0);
    ghost var rank := seq(n, _ => -1);
    ghost var S: set<int> := {};
    ghost var floor := 0;
    var heap := NewHeap(n);
    heap := Insert(heap, src, 0);
    var reached := false;
    InitialState(g, src, dest, dist, parent, pw, rank, heap);

    while !reached && !IsEmpty(heap)
      invariant Searching(g, src, dest, dist, parent, pw, rank, S, floor, heap)
      invariant AllRelaxed(g, dist, S)
      invariant !reached ==> Frontier(heap, dist, S)
      invariant reached ==>
                  dist[dest].Fin? &&
                  forall vs, ws :: WalkFromTo(g, vs, ws, src, dest) ==> dist[dest].km <= Sum(ws)
      decreases n - |S|, if reached then 0 else 1
    {
      dist, parent, heap, pw, rank, S, floor, reached :=
        SearchStep(g, src, dest, dist, parent, heap, pw, rank, S, floor);
    }

    r := BuildRoute(g, src, dest, dist, parent, pw, rank, S, floor, heap, reached);
  }

  /** Before the first round: only the start station is reached, at
      distance 0, and it is the one station in the heap. */
  lemma InitialState(g: Graph, src: int, dest: int, dist: seq<Dist>, parent: seq<int>, pw: seq<int>,
                     rank: seq<int>, heap: MinHeap)
    requires SearchableGraph(g)
    requires 0 <= src < |g.stations| && 0 <= dest < |g.stations|
    requires var n := |g.stations|;
             && dist == seq(n, _ => Infinite)[src := Fin(0)] && parent == seq(n, _ => NoParent)
             && pw == seq(n, _ => 0) && rank == seq(n, _ => -1)
    requires Consistent(heap) && |heap.positions| == |g.stations| && |heap.entries| == 1
    requires Contents(heap) == map[src := 0]
    ensures Searching(g, src, dest, dist, parent, pw, rank, {}, 0, heap)
    ensures AllRelaxed(g, dist, {}) && Frontier(heap, dist, {})
    ensures !IsEmpty(heap)
  {
  }

  /** One round of the search loop: extract the closest station; stop if it
      is the destination, otherwise settle it and relax its adjacency list. */
  method SearchStep(g: Graph, src: int, dest: int, dist: seq<Dist>, parent: seq<int>, heap: MinHeap,
                    ghost pw: seq<int>, ghost rank: seq<int>, ghost S: set<int>, ghost floor: int)
    returns (dist': seq<Dist>, parent': seq<int>, heap': MinHeap, ghost pw': seq<int>,
             ghost rank': seq<int>, ghost S': set<int>, ghost floor': int, reached: bool)
    requires Searching(g, src, dest, dist, parent, pw, rank, S, floor, heap)
    requires AllRelaxed(g, dist, S) && Frontier(heap, dist, S)
    requires !IsEmpty(heap)
    ensures Searching(g, src, dest, dist', parent', pw', rank', S', floor', heap')
    ensures AllRelaxed(g, dist', S')
    ensures !reached ==> Frontier(heap', dist', S') && |S'| == |S| + 1
    ensures reached ==> S' == S
    ensures reached ==>
              dist'[dest].Fin? &&
              forall vs, ws :: WalkFromTo(g, vs, ws, src, dest) ==> dist'[dest].km <= Sum(ws)
  {
    var res := ExtractMin(heap);
    var top := res.value.0;
    heap' := res.value.1;
    var u := top.vertex;
    if u == dest {
      ExtractedIsShortest(g, src, dist, S, heap, u);
      dist', parent', pw', rank', S', floor', reached := dist, parent, pw, rank, S, floor, true;
    } else {
      SettleStep(g, src, dest, dist, parent, pw, rank, S, floor, heap, heap', top);
      floor' := top.key;
      rank' := rank[u := |S|];
      S' := S + {u};
      reached := false;
      dist', parent', heap', pw' := RelaxEdges(g, src, dest, u, dist, parent, heap', pw, rank', S', floor');
    }
  }

  /** The tail of dijkstra: distance IntMax and no path when the destination
      was not reached, otherwise its distance and the parent chain leading to
      it. */
  method BuildRoute(g: Graph, src: int, dest: int, dist: seq<Dist>, parent: seq<int>,
                    ghost pw: seq<int>, ghost rank: seq<int>, ghost S: set<int>, ghost floor: int,
                    heap: MinHeap, reached: bool)
    returns (r: Route)
    requires Searching(g, src, dest, dist, parent, pw, rank, S, floor, heap)
    requires AllRelaxed(g, dist, S)
    requires !reached ==> Frontier(heap, dist, S) && IsEmpty(heap)
    requires reached ==>
               dist[dest].Fin? &&
               forall vs, ws :: WalkFromTo(g, vs, ws, src, dest) ==> dist[dest].km <= Sum(ws)
    ensures ShortestRoute(g, src, dest, r)
    ensures SimplePath(r.path)
    ensures src == dest ==> r == Route(0, [src])
  {
    var path: seq<int> := [];
    if dist[dest].Fin? {
      path := PrintPath(parent, dest, |dist|);
    }
    r := Route(if dist[dest].Fin? then dist[dest].km else IntMax, path);

    if reached {
      ghost var ws := RouteIsWalk(g, src, dest, dist, parent, pw, rank, S, floor, heap, path);
      ChainDistinct(g, src, dest, dist, parent, pw, rank, S, floor, heap, path);
      if src == dest {
        StayingPut(g, src);
        assert path == [src];
      }
    } else {
      IsEmptyIffNoVertex(heap);
      NothingBeyondSettled(g, src, dest, dist, S, heap);
    }
  }

  /** The relaxation loop over the adjacency list of the station u just
      settled: a neighbour v that gets closer through u is given the new
      distance and u as parent, and is decreased in the heap when there and
      inserted otherwise. */
  method RelaxEdges(g: Graph, src: int, dest: int, u: int, dist: seq<Dist>, parent: seq<int>,
                    heap: MinHeap, ghost pw: seq<int>, ghost rank: seq<int>, ghost S: set<int>,
                    ghost floor: int)
    returns (dist': seq<Dist>, parent': seq<int>, heap': MinHeap, ghost pw': seq<int>)
    requires Searching(g, src, dest, dist, parent, pw, rank, S, floor, heap)
    requires u in S && dist[u] == Fin(floor)
    requires forall x :: x in S && x != u ==> FullyRelaxed(g, dist, x)
    requires Frontier(heap, dist, S)
    ensures Searching(g, src, dest, dist', parent', pw', rank, S, floor, heap')
    ensures AllRelaxed(g, dist', S)
    ensures Frontier(heap', dist', S)
  {
    dist', parent', heap', pw' := dist, parent, heap, pw;
    var k := 0;
    while k < |g.adjacency[u]|
      invariant k <= |g.adjacency[u]|
      invariant Searching(g, src, dest, dist', parent', pw', rank, S, floor, heap')
      invariant dist'[u] == Fin(floor)
      invariant forall x :: x in S && x != u ==> FullyRelaxed(g, dist', x)
      invariant Relaxed(g, dist', u, k)
      invariant Frontier(heap', dist', S)
    {
      dist', parent', heap', pw' := RelaxEdge(g, src, dest, u, k, dist', parent', heap', pw', rank, S, floor);
      k := k + 1;
    }
  }

  /** One step of the relaxation loop: the k-th adjacency entry of u. */
  method RelaxEdge(g: Graph, src: int, dest: int, u: int, k: int, dist: seq<Dist>, parent: seq<int>,
                   heap: MinHeap, ghost pw: seq<int>, ghost rank: seq<int>, ghost S: set<int>,
                   ghost floor: int)
    returns (dist': seq<Dist>, parent': seq<int>, heap': MinHeap, ghost pw': seq<int>)
    requires Searching(g, src, dest, dist, parent, pw, rank, S, floor, heap)
    requires u in S && dist[u] == Fin(floor)
    requires forall x :: x in S && x != u ==> FullyRelaxed(g, dist, x)
    requires Relaxed(g, dist, u, k) && k < |g.adjacency[u]|
    requires Frontier(heap, dist, S)
    ensures Searching(g, src, dest, dist', parent', pw', rank, S, floor, heap')
    ensures dist'[u] == Fin(floor)
    ensures forall x :: x in S && x != u ==> FullyRelaxed(g, dist', x)
    ensures Relaxed(g, dist', u, k + 1)
    ensures Frontier(heap', dist', S)
  {
    var v := g.adjacency[u][k].dest;
    var weight := g.adjacency[u][k].weight;
    if dist[u].Fin? && (dist[v].Infinite? || dist[u].km + weight < dist[v].km) {
      var d := dist[u].km + weight;
      if Contains(heap, v) {
        ContainsIffStored(heap, v);
        var res := DecreaseKey(heap, v, d);
        heap' := res.value;
      } else {
        ContainsIffStored(heap, v);
        heap' := Insert(heap, v, d);
      }
      RelaxStep(g, src, dest, u, k, v, weight, d, dist, parent, pw, rank, S, floor, heap, heap');
      dist', parent', pw' := dist[v := Fin(d)], parent[v := u], pw[v := weight];
    } else {
      dist', parent', heap', pw' := dist, parent, heap, pw;
      assert Relaxed(g, dist, u, k + 1);
    }
  }

  /** One relaxation that lowers the distance of the neighbour v of u keeps
      the invariant: v is not settled, gets u as parent, and its heap key
      becomes its new distance. */
  lemma RelaxStep(g: Graph, src: int, dest: int, u: int, k: int, v: int, w: int, d: int,
                  dist: seq<Dist>, parent: seq<int>, pw: seq<int>, rank: seq<int>, S: set<int>,
                  floor: int, heap: MinHeap, heap': MinHeap)
    requires Searching(g, src, dest, dist, parent, pw, rank, S, floor, heap)
    requires u in S && dist[u] == Fin(floor)
    requires forall x :: x in S && x != u ==> FullyRelaxed(g, dist, x)
    requires Relaxed(g, dist, u, k) && k < |g.adjacency[u]| && g.adjacency[u][k] == Edge(v, w)
    requires Frontier(heap, dist, S)
    requires d == floor + w && (dist[v].Infinite? || d < dist[v].km)
    requires Valid(heap') && |heap'.positions| == |heap.positions|
    requires Contents(heap') == Contents(heap)[v := d]
    ensures var dist' := dist[v := Fin(d)];
            && Searching(g, src, dest, dist', parent[v := u], pw[v := w], rank, S, floor, heap')
            && dist'[u] == Fin(floor)
            && (forall x :: x in S && x != u ==> FullyRelaxed(g, dist', x))
            && Relaxed(g, dist', u, k + 1)
            && Frontier(heap', dist', S)
  {
    var dist' := dist[v := Fin(d)];
    assert Edge(v, w) in g.adjacency[u];
    assert w >= 0;
    assert v !in S;
    assert v != src;
    LoweringKeepsRelaxed(g, dist, dist', v, S, u, k, w);
    RelaxKeepsSettled(dest, v, d, dist, rank, S, floor);
    RelaxKeepsParents(g, src, u, v, w, d, dist, parent, pw, rank, S);
    RelaxKeepsHeap(v, d, dist, S, floor, heap, heap');
  }

  lemma RelaxKeepsSettled(dest: int, v: int, d: int, dist: seq<Dist>, rank: seq<int>, S: set<int>, floor: int)
    requires |rank| == |dist| && 0 <= v < |dist| && v !in S
    requires SettledFacts(|dist|, dest, dist, rank, S, floor)
    ensures SettledFacts(|dist|, dest, dist[v := Fin(d)], rank, S, floor)
  {
  }

  lemma RelaxKeepsParents(g: Graph, src: int, u: int, v: int, w: int, d: int, dist: seq<Dist>,
                          parent: seq<int>, pw: seq<int>, rank: seq<int>, S: set<int>)
    requires |dist| == |g.stations| == |g.adjacency| && |parent| == |dist| && |pw| == |dist|
    requires |rank| == |dist|
    requires ParentFacts(g, src, dist, parent, pw, rank, S)
    requires u in S && 0 <= u < |dist| && dist[u].Fin? && w >= 0
    requires 0 <= v < |dist| && v !in S && v != src && Edge(v, w) in g.adjacency[u]
    requires d == dist[u].km + w
    ensures ParentFacts(g, src, dist[v := Fin(d)], parent[v := u], pw[v := w], rank, S)
  {
  }

  lemma RelaxKeepsHeap(v: int, d: int, dist: seq<Dist>, S: set<int>, floor: int,
                       heap: MinHeap, heap': MinHeap)
    requires Consistent(heap) && Consistent(heap')
    requires HeapFacts(heap, dist, S, floor) && Frontier(heap, dist, S)
    requires 0 <= v < |dist| && v !in S && floor <= d
    requires Contents(heap') == Contents(heap)[v := d]
    ensures HeapFacts(heap', dist[v := Fin(d)], S, floor)
    ensures Frontier(heap', dist[v := Fin(d)], S)
  {
  }

  /** Settling the station u just extracted (other than the destination)
      keeps the invariant with u ranked last and its key as the new floor. */
  lemma SettleStep(g: Graph, src: int, dest: int, dist: seq<Dist>, parent: seq<int>, pw: seq<int>,
                   rank: seq<int>, S: set<int>, floor: int, before: MinHeap, heap: MinHeap, top: Entry)
    requires Searching(g, src, dest, dist, parent, pw, rank, S, floor, before)
    requires AllRelaxed(g, dist, S) && Frontier(before, dist, S)
    requires Valid(heap) && |heap.positions| == |before.positions|
    requires top.vertex in Contents(before) && Contents(before)[top.vertex] == top.key
    requires forall v :: v in Contents(before) ==> top.key <= Contents(before)[v]
    requires Contents(heap) == Contents(before) - {top.vertex}
    requires top.vertex != dest
    ensures var u := top.vertex;
            var S' := S + {u};
            && Searching(g, src, dest, dist, parent, pw, rank[u := |S|], S', top.key, heap)
            && u in S' && dist[u] == Fin(top.key)
            && (forall x :: x in S' && x != u ==> FullyRelaxed(g, dist, x))
            && Frontier(heap, dist, S')
  {
    var u := top.vertex;
    var S' := S + {u};
    var rank' := rank[u := |S|];
    SettledBelowAll(|dist|, dest, S');
    assert SettledFacts(|dist|, dest, dist, rank', S', top.key);
    assert ParentFacts(g, src, dist, parent, pw, rank', S');
  }

  /** Lowering the distance of one unsettled station keeps every relaxed
      adjacency list relaxed. */
  lemma LoweringKeepsRelaxed(g: Graph, dist: seq<Dist>, dist': seq<Dist>, v: int, S: set<int>,
                             u: int, k: int, w: int)
    requires 0 <= v < |dist| == |dist'| && v !in S && dist' == dist[v := dist'[v]] && dist'[v].Fin?
    requires dist[v].Fin? ==> dist'[v].km <= dist[v].km
    requires forall x :: x in S && x != u ==> FullyRelaxed(g, dist, x)
    requires u in S && Relaxed(g, dist, u, k)
    requires k < |g.adjacency[u]| && g.adjacency[u][k] == Edge(v, w)
    requires dist'[v].km <= dist[u].km + w
    ensures forall x :: x in S && x != u ==> FullyRelaxed(g, dist', x)
    ensures Relaxed(g, dist', u, k + 1)
  {
  }

  /* ----------------------------------------------------------------------
     Why the search is right
     ---------------------------------------------------------------------- */

  /** The settled stations never outnumber the stations other than the
      destination. */
  lemma SettledBelowAll(n: int, dest: int, S: set<int>)
    requires 0 <= dest < n && dest !in S
    requires forall x :: x in S ==> 0 <= x < n
    ensures |S| < n
  {
    BoundedSetSize(S + {dest}, n);
  }

  /** A set of stations among 0 .. n-1 has at most n elements. */
  lemma {:induction false} BoundedSetSize(A: set<int>, n: int)
    requires n >= 0 && forall x :: x in A ==> 0 <= x < n
    ensures |A| <= n
    decreases n
  {
    if n > 0 {
      BoundedSetSize(A - {n - 1}, n - 1);
    } else {
      assert forall x :: x !in A;
      assert A == {};
    }
  }

  /** Along any walk from the start station whose first j stations are all
      settled, the j-th station is reached and no further than the walk's
      first j steps. */
  lemma {:induction false} SettledPrefixBound(g: Graph, src: int, dist: seq<Dist>, S: set<int>,
                                              vs: seq<int>, ws: seq<int>, j: nat)
    requires IsWalk(g, vs, ws) && vs[0] == src && |dist| == |g.adjacency|
    requires 0 <= src < |dist| && dist[src] == Fin(0)
    requires j < |vs|
    requires forall k :: 0 <= k < j ==> vs[k] in S
    requires AllRelaxed(g, dist, S)
    ensures dist[vs[j]].Fin? && dist[vs[j]].km <= Sum(ws[..j])
  {
    if j == 0 {
      assert ws[..0] == [];
    } else {
      SettledPrefixBound(g, src, dist, S, vs, ws, j - 1);
      var x := vs[j - 1];
      assert x in S;
      assert FullyRelaxed(g, dist, x);
      var e := Edge(vs[j], ws[j - 1]);
      assert e in g.adjacency[x];
      var idx :| 0 <= idx < |g.adjacency[x]| && g.adjacency[x][idx] == e;
      assert ws[..j][..j - 1] == ws[..j - 1];
    }
  }

  /** The first unsettled station on a walk that leaves the settled set. */
  lemma FirstUnsettled(vs: seq<int>, S: set<int>) returns (j: nat)
    requires |vs| > 0 && vs[|vs| - 1] !in S
    ensures j < |vs| && vs[j] !in S
    ensures forall k :: 0 <= k < j ==> vs[k] in S
  {
    j := 0;
    while vs[j] in S
      invariant j < |vs|
      invariant forall k :: 0 <= k < j ==> vs[k] in S
      decreases |vs| - j
    {
      j := j + 1;
    }
  }

  /** When the station u with the smallest key leaves the heap, its
      tentative distance is the length of a shortest walk to it: every walk
      from the start leaves the settled set at some reached station still in
      the heap, whose key is no smaller than u's. */
  lemma ExtractedIsShortest(g: Graph, src: int, dist: seq<Dist>, S: set<int>, heap: MinHeap, u: int)
    requires NonNegativeWeights(g) && |dist| == |g.adjacency|
    requires 0 <= src < |dist| && dist[src] == Fin(0)
    requires AllRelaxed(g, dist, S)
    requires Consistent(heap) && HeapOrdered(heap.entries)
    requires forall v :: v in Contents(heap) ==> 0 <= v < |dist| && v !in S && dist[v] == Fin(Contents(heap)[v])
    requires Frontier(heap, dist, S)
    requires u in Contents(heap) && forall v :: v in Contents(heap) ==> Contents(heap)[u] <= Contents(heap)[v]
    ensures dist[u].Fin?
    ensures forall vs, ws :: WalkFromTo(g, vs, ws, src, u) ==> dist[u].km <= Sum(ws)
  {
    forall vs, ws | WalkFromTo(g, vs, ws, src, u) ensures dist[u].km <= Sum(ws) {
      var j := FirstUnsettled(vs, S);
      SettledPrefixBound(g, src, dist, S, vs, ws, j);
      StepsNonNegative(g, vs, ws);
      PrefixSumBounded(ws, j);
      assert vs[j] in Contents(heap);
    }
  }

  /** When the heap runs empty without meeting the destination, every walk
      from the start stays among the settled stations, so none reaches the
      destination, and the destination was never reached. */
  lemma NothingBeyondSettled(g: Graph, src: int, dest: int, dist: seq<Dist>, S: set<int>, heap: MinHeap)
    requires |dist| == |g.adjacency| && 0 <= src < |dist| && dist[src] == Fin(0)
    requires 0 <= dest < |dist| && dest !in S
    requires AllRelaxed(g, dist, S)
    requires Consistent(heap) && Contents(heap) == map[]
    requires Frontier(heap, dist, S)
    ensures dist[dest].Infinite?
    ensures !Reachable(g, src, dest)
  {
    if Reachable(g, src, dest) {
      var vs, ws :| WalkFromTo(g, vs, ws, src, dest);
      var j := FirstUnsettled(vs, S);
      SettledPrefixBound(g, src, dist, S, vs, ws, j);
    }
  }

  /** Following parents back from a settled station meets strictly smaller
      ranks, so position i of the chain has rank at least i. */
  lemma {:induction false} ChainRanks(p: seq<int>, parent: seq<int>, rank: seq<int>, S: set<int>, i: nat)
    requires |parent| == |rank| && ParentsInRange(parent)
    requires forall x :: x in S ==> 0 <= x < |rank|
    requires forall k :: 0 <= k < |p| ==> 0 <= p[k] < |parent|
    requires forall k :: 0 < k < |p| ==> parent[p[k]] == p[k - 1]
    requires forall k :: 0 <= k < |p| - 1 ==> p[k] in S
    requires forall v :: 0 <= v < |parent| && v in S && parent[v] != NoParent ==> rank[parent[v]] < rank[v]
    requires forall x :: x in S ==> rank[x] >= 0
    requires i < |p| - 1
    ensures rank[p[i]] >= i
  {
    if i > 0 {
      ChainRanks(p, parent, rank, S, i - 1);
    }
  }

  /** Along a chain of settled stations ranks strictly increase, so no
      station occurs twice among them. */
  lemma {:induction false} RanksIncrease(p: seq<int>, parent: seq<int>, rank: seq<int>, S: set<int>,
                                         i: nat, j: nat)
    requires |parent| == |rank| && ParentsInRange(parent)
    requires forall k :: 0 <= k < |p| ==> 0 <= p[k] < |parent|
    requires forall k :: 0 < k < |p| ==> parent[p[k]] == p[k - 1]
    requires forall k :: 0 <= k < |p| - 1 ==> p[k] in S
    requires forall v :: 0 <= v < |parent| && v in S && parent[v] != NoParent ==> rank[parent[v]] < rank[v]
    requires i < j < |p| - 1
    ensures rank[p[i]] < rank[p[j]]
    decreases j - i
  {
    assert parent[p[j]] == p[j - 1] && p[j] in S;
    if i < j - 1 {
      RanksIncrease(p, parent, rank, S, i, j - 1);
    }
  }

  /** The parent chain of the destination visits no station twice: every
      station before the destination is settled, ranks strictly increase
      along the settled part, and the destination itself is never settled. */
  lemma ChainDistinct(g: Graph, src: int, dest: int, dist: seq<Dist>, parent: seq<int>, pw: seq<int>,
                      rank: seq<int>, S: set<int>, floor: int, heap: MinHeap, path: seq<int>)
    requires Searching(g, src, dest, dist, parent, pw, rank, S, floor, heap)
    requires dist[dest].Fin?
    requires ParentsInRange(parent) && path == PrintPath(parent, dest, |dist|)
    ensures SimplePath(path)
  {
    forall k | 0 <= k < |path| - 1 ensures path[k] in S {
      assert parent[path[k + 1]] == path[k];
    }
    forall i, j | 0 <= i < j < |path| ensures path[i] != path[j] {
      if j == |path| - 1 {
        assert path[i] in S && dest !in S;
      } else {
        RanksIncrease(path, parent, rank, S, i, j);
      }
    }
  }

  /** The chain of parents of a reached station is a walk from the start
      station whose length is the station's distance. */
  lemma RouteIsWalk(g: Graph, src: int, dest: int, dist: seq<Dist>, parent: seq<int>, pw: seq<int>,
                    rank: seq<int>, S: set<int>, floor: int, heap: MinHeap, path: seq<int>)
    returns (ws: seq<int>)
    requires Searching(g, src, dest, dist, parent, pw, rank, S, floor, heap)
    requires dist[dest].Fin?
    requires ParentsInRange(parent) && path == PrintPath(parent, dest, |dist|)
    ensures path[0] == src && path[|path| - 1] == dest
    ensures IsWalk(g, path, ws) && Sum(ws) == dist[dest].km
  {
    ChainStartsAtSource(g, src, dest, dist, parent, pw, rank, S, floor, heap, path);
    ws := StepWeights(pw, path);
    ChainSteps(g, src, dist, parent, pw, rank, S, path, ws);
    ChainLength(g, src, dist, parent, pw, rank, S, path, ws, |ws|);
    assert ws[..|ws|] == ws;
  }

  /** The distances of the adjacency entries along a chain of stations, as
      recorded for each station when it got its parent. */
  function StepWeights(pw: seq<int>, path: seq<int>): (ws: seq<int>)
    requires |path| > 0 && forall k :: 0 <= k < |path| ==> 0 <= path[k] < |pw|
    ensures |ws| == |path| - 1
    ensures forall k :: 0 <= k < |ws| ==> ws[k] == pw[path[k + 1]]
  {
    seq(|path| - 1, i requires 0 <= i < |path| - 1 => pw[path[i + 1]])
  }

  /** The parent chain of a reached station stops at the start station: it
      cannot run for n + 1 stations, since ranks strictly decrease along it. */
  lemma ChainStartsAtSource(g: Graph, src: int, dest: int, dist: seq<Dist>, parent: seq<int>,
                            pw: seq<int>, rank: seq<int>, S: set<int>, floor: int, heap: MinHeap,
                            path: seq<int>)
    requires Searching(g, src, dest, dist, parent, pw, rank, S, floor, heap)
    requires dist[dest].Fin?
    requires ParentsInRange(parent) && path == PrintPath(parent, dest, |dist|)
    ensures parent[path[0]] == NoParent && path[0] == src
  {
    var n := |dist|;
    if |path| == n + 1 {
      forall k | 0 <= k < |path| - 1 ensures path[k] in S {
        assert parent[path[k + 1]] == path[k];
      }
      ChainRanks(path, parent, rank, S, n - 1);
      assert false;
    }
    if |path| > 1 {
      assert parent[path[1]] == path[0];
    }
  }

  /** Each step of the parent chain is an adjacency entry of the parent. */
  lemma ChainSteps(g: Graph, src: int, dist: seq<Dist>, parent: seq<int>, pw: seq<int>,
                   rank: seq<int>, S: set<int>, path: seq<int>, ws: seq<int>)
    requires |dist| == |g.stations| == |g.adjacency| && |parent| == |dist| && |pw| == |dist|
    requires |rank| == |dist|
    requires ParentFacts(g, src, dist, parent, pw, rank, S)
    requires |path| == |ws| + 1
    requires forall k :: 0 <= k < |path| ==> 0 <= path[k] < |dist|
    requires forall k :: 0 < k < |path| ==> parent[path[k]] == path[k - 1]
    requires forall k :: 0 <= k < |ws| ==> ws[k] == pw[path[k + 1]]
    ensures IsWalk(g, path, ws)
  {
    forall i | 0 <= i < |ws| ensures Edge(path[i + 1], ws[i]) in g.adjacency[path[i]] {
      assert parent[path[i + 1]] == path[i];
    }
  }

  lemma {:induction false} ChainLength(g: Graph, src: int, dist: seq<Dist>, parent: seq<int>, pw: seq<int>,
                                       rank: seq<int>, S: set<int>, path: seq<int>, ws: seq<int>, i: nat)
    requires |dist| == |g.stations| == |g.adjacency| && |parent| == |dist| && |pw| == |dist|
    requires |rank| == |dist|
    requires ParentFacts(g, src, dist, parent, pw, rank, S)
    requires |path| == |ws| + 1 && path[0] == src
    requires forall k :: 0 <= k < |path| ==> 0 <= path[k] < |dist|
    requires forall k :: 0 < k < |path| ==> parent[path[k]] == path[k - 1]
    requires forall k :: 0 <= k < |ws| ==> ws[k] == pw[path[k + 1]]
    requires dist[path[|path| - 1]].Fin?
    requires i <= |ws|
    ensures dist[path[i]].Fin? && Sum(ws[..i]) == dist[path[i]].km
  {
    if i == 0 {
      assert ws[..0] == [];
    } else {
      ChainLength(g, src, dist, parent, pw, rank, S, path, ws, i - 1);
      assert ws[..i][..i - 1] == ws[..i - 1];
    }
  }

  /* ----------------------------------------------------------------------
     The name-based query
     ---------------------------------------------------------------------- */

  /** shortestPath: the unknown-station sentinel (-1, []) when either name is
      unknown, without searching; otherwise the search between the two
      stations' indices. */
  method ShortestPath(g: Graph, srcName: string, destName: string) returns (r: Route)
    requires WellFormed(g) && NonNegativeWeights(g)
    ensures !HasStation(g, srcName) || !HasStation(g, destName) ==> r == UnknownStation
    ensures HasStation(g, srcName) && HasStation(g, destName) ==>
              ShortestRoute(g, GetStationIndex(g, srcName), GetStationIndex(g, destName), r)
    ensures HasStation(g, srcName) && srcName == destName ==>
              r == Route(0, [GetStationIndex(g, srcName)])
    ensures SimplePath(r.path)
  {
    var src := GetStationIndex(g, srcName);
    var dest := GetStationIndex(g, destName);
    if src == -1 || dest == -1 {
      return UnknownStation;
    }
    r := Dijkstra(g, src, dest);
  }
}

=== FILE: graph.dfy ===
/** The metro network: stations in insertion order, one adjacency list per
    station, and a table from station names to station indices. The graph is
    a value built by a sequence of AddStation / AddEdge calls. */
module Graphs {

  datatype Station = Station(name: string, line: string)

  /** One directed adjacency entry: the neighbouring station and the distance
      to it in kilometres. An undirected connection is stored as two entries. */
  datatype Edge = Edge(dest: int, weight: int)

  datatype Graph = Graph(
    stations: seq<Station>,
    adjacency: seq<seq<Edge>>,
    indices: map<string, int>)

  /** The number of stations (`numVertices` in the C++ program). */
  function NumVertices(g: Graph): nat {
    |g.stations|
  }

  /* ----------------------------------------------------------------------
     Invariants
     ---------------------------------------------------------------------- */

  /** Every adjacency entry names an existing station. */
  ghost predicate EdgesInRange(adj: seq<seq<Edge>>) {
    forall i, j :: 0 <= i < |adj| && 0 <= j < |adj[i]| ==> 0 <= adj[i][j].dest < |adj|
  }

  /** The name table maps each name to the last station added under that
      name, and every station's name is in the table. */
  ghost predicate IndexedByName(g: Graph) {
    && (forall nm :: nm in g.indices ==>
          && 0 <= g.indices[nm] < |g.stations|
          && g.stations[g.indices[nm]].name == nm
          && forall j :: g.indices[nm] < j < |g.stations| ==> g.stations[j].name != nm)
    && (forall i :: 0 <= i < |g.stations| ==> g.stations[i].name in g.indices)
  }

  ghost predicate WellFormed(g: Graph) {
    && |g.adjacency| == |g.stations|
    && EdgesInRange(g.adjacency)
    && IndexedByName(g)
  }

  /** No adjacency entry carries a negative distance. The C++ program does not
      check this, and the search relies on it. */
  ghost predicate NonNegativeWeights(g: Graph) {
    forall i, j :: 0 <= i < |g.adjacency| && 0 <= j < |g.adjacency[i]| ==>
      g.adjacency[i][j].weight >= 0
  }

  /* ----------------------------------------------------------------------
     Construction
     ---------------------------------------------------------------------- */

  function EmptyGraph(): (g: Graph)
    ensures WellFormed(g) && NonNegativeWeights(g) && NumVertices(g) == 0
    ensures Undirected(g.adjacency)
    ensures forall nm :: !HasStation(g, nm)
  {
    Graph([], [], map[])
  }

  /** addStation: appends the station at index numVertices with an empty
      adjacency list; a name used before is re-pointed at the new index. */
  function AddStation(g: Graph, name: string, line: string): (g': Graph)
    requires WellFormed(g)
    ensures WellFormed(g')
    ensures NumVertices(g') == NumVertices(g) + 1
    ensures g'.stations[..NumVertices(g)] == g.stations
    ensures g'.stations[NumVertices(g)] == Station(name, line)
    ensures g'.adjacency[..NumVertices(g)] == g.adjacency
    ensures g'.adjacency[NumVertices(g)] == []
    ensures GetStationIndex(g', name) == NumVertices(g)
    ensures forall nm :: nm != name ==> GetStationIndex(g', nm) == GetStationIndex(g, nm)
    ensures NonNegativeWeights(g) ==> NonNegativeWeights(g')
  {
    var n := |g.stations|;
    var g' := Graph(g.stations + [Station(name, line)], g.adjacency + [[]], g.indices[name := n]);
    assert EdgesInRange(g'.adjacency) by {
      forall i, j | 0 <= i < |g'.adjacency| && 0 <= j < |g'.adjacency[i]|
        ensures 0 <= g'.adjacency[i][j].dest < |g'.adjacency|
      {
        assert i < n;
      }
    }
    g'
  }

  /** addEdge: a no-op when either name is unknown; otherwise appends
      Edge(destIndex, distance) to the source's list and then
      Edge(srcIndex, distance) to the destination's list. */
  function AddEdge(g: Graph, src: string, dest: string, distance: int): (g': Graph)
    requires WellFormed(g)
    ensures WellFormed(g')
    ensures !HasStation(g, src) || !HasStation(g, dest) ==> g' == g
    ensures HasStation(g, src) && HasStation(g, dest) ==>
              var s := GetStationIndex(g, src);
              var t := GetStationIndex(g, dest);
              && g'.stations == g.stations && g'.indices == g.indices
              && |g'.adjacency| == |g.adjacency|
              && (s != t ==> g'.adjacency[s] == g.adjacency[s] + [Edge(t, distance)])
              && (s != t ==> g'.adjacency[t] == g.adjacency[t] + [Edge(s, distance)])
              && (s == t ==> g'.adjacency[s] == g.adjacency[s] + [Edge(t, distance), Edge(s, distance)])
              && forall k :: 0 <= k < |g.adjacency| && k != s && k != t ==>
                   g'.adjacency[k] == g.adjacency[k]
    ensures NonNegativeWeights(g) && distance >= 0 ==> NonNegativeWeights(g')
  {
    if !HasStation(g, src) || !HasStation(g, dest) then
      g
    else
      var s := g.indices[src];
      var t := g.indices[dest];
      var adj := g.adjacency[s := g.adjacency[s] + [Edge(t, distance)]];
      var adj' := adj[t := adj[t] + [Edge(s, distance)]];
      var g' := Graph(g.stations, adj', g.indices);
      assert EdgesInRange(adj') by {
        forall i, j | 0 <= i < |adj'| && 0 <= j < |adj'[i]|
          ensures 0 <= adj'[i][j].dest < |adj'|
        {
          if i == t && j == |adj'[i]| - 1 {
          } else if i == s && j < |adj[i]| {
            assert adj'[i][j] == adj[i][j];
          } else {
            assert adj'[i][j] == adj[i][j];
          }
        }
      }
      g'
  }

  /** Every connection is stored in both directions: station i lists j at
      distance d as many times as j lists i at distance d. */
  ghost predicate Undirected(adj: seq<seq<Edge>>) {
    forall i, j, d :: 0 <= i < |adj| && 0 <= j < |adj| ==>
      multiset(adj[i])[Edge(j, d)] == multiset(adj[j])[Edge(i, d)]
  }

  /** A network built only by EmptyGraph, AddStation and AddEdge is
      undirected: adding a station adds an empty list, and adding a
      connection adds the entry and its mirror image. */
  lemma {:induction false} AddStationKeepsUndirected(g: Graph, name: string, line: string)
    requires WellFormed(g) && Undirected(g.adjacency)
    ensures Undirected(AddStation(g, name, line).adjacency)
  {
    var adj := AddStation(g, name, line).adjacency;
    var n := |g.adjacency|;
    forall i, j, d | 0 <= i < |adj| && 0 <= j < |adj|
      ensures multiset(adj[i])[Edge(j, d)] == multiset(adj[j])[Edge(i, d)]
    {
      if i < n && j < n {
        assert adj[i] == g.adjacency[i] && adj[j] == g.adjacency[j];
      } else if i == n {
        NoEdgeBeyond(g.adjacency, adj, j, i, d);
      } else {
        NoEdgeBeyond(g.adjacency, adj, i, j, d);
      }
    }
  }

  /** A list of the network before a station was added never names it. */
  lemma NoEdgeBeyond(old_adj: seq<seq<Edge>>, adj: seq<seq<Edge>>, i: int, n: int, d: int)
    requires EdgesInRange(old_adj) && n == |old_adj| && |adj| == n + 1
    requires adj[..n] == old_adj && adj[n] == []
    requires 0 <= i < |adj|
    ensures multiset(adj[i])[Edge(n, d)] == 0
  {
    if i < n {
      assert adj[i] == old_adj[i];
      assert Edge(n, d) !in old_adj[i];
    }
  }

  /** What AddEdge adds to the list of station k, as a multiset. */
  function AddedEntries(k: int, s: int, t: int, w: int): multiset<Edge> {
    (if k == s then multiset{Edge(t, w)} else multiset{}) +
    (if k == t then multiset{Edge(s, w)} else multiset{})
  }

  lemma AddEdgeEntries(g: Graph, src: string, dest: string, distance: int, k: int)
    requires WellFormed(g) && HasStation(g, src) && HasStation(g, dest)
    requires 0 <= k < |g.adjacency|
    ensures multiset(AddEdge(g, src, dest, distance).adjacency[k]) ==
            multiset(g.adjacency[k]) + AddedEntries(k, g.indices[src], g.indices[dest], distance)
  {
    var s := g.indices[src];
    var t := g.indices[dest];
    var adj' := AddEdge(g, src, dest, distance).adjacency;
    if k == s && k == t {
      assert adj'[k] == g.adjacency[k] + [Edge(t, distance)] + [Edge(s, distance)];
    } else if k == s {
      assert adj'[k] == g.adjacency[k] + [Edge(t, distance)];
    } else if k == t {
      assert adj'[k] == g.adjacency[k] + [Edge(s, distance)];
    }
  }

  lemma {:induction false} AddEdgeKeepsUndirected(g: Graph, src: string, dest: string, distance: int)
    requires WellFormed(g) && Undirected(g.adjacency)
    ensures Undirected(AddEdge(g, src, dest, distance).adjacency)
  {
    if HasStation(g, src) && HasStation(g, dest) {
      var adj' := AddEdge(g, src, dest, distance).adjacency;
      forall k | 0 <= k < |g.adjacency|
        ensures multiset(adj'[k]) ==
                multiset(g.adjacency[k]) + AddedEntries(k, g.indices[src], g.indices[dest], distance)
      {
        AddEdgeEntries(g, src, dest, distance, k);
      }
      MirroredAdditions(g.adjacency, adj', g.indices[src], g.indices[dest], distance);
    }
  }

  /** Adding an entry together with its mirror image keeps the lists
      symmetric. */
  lemma MirroredAdditions(adj: seq<seq<Edge>>, adj': seq<seq<Edge>>, s: int, t: int, w: int)
    requires Undirected(adj) && |adj'| == |adj|
    requires forall k :: 0 <= k < |adj| ==> multiset(adj'[k]) == multiset(adj[k]) + AddedEntries(k, s, t, w)
    ensures Undirected(adj')
  {
    forall i, j, d | 0 <= i < |adj'| && 0 <= j < |adj'|
      ensures multiset(adj'[i])[Edge(j, d)] == multiset(adj'[j])[Edge(i, d)]
    {
      MirroredPair(adj, adj', s, t, w, i, j, d);
    }
  }

  /** The count of (j, d) in list i and of (i, d) in list j grow alike. */
  lemma MirroredPair(adj: seq<seq<Edge>>, adj': seq<seq<Edge>>, s: int, t: int, w: int,
                     i: int, j: int, d: int)
    requires 0 <= i < |adj| && 0 <= j < |adj| && |adj'| == |adj|
    requires multiset(adj[i])[Edge(j, d)] == multiset(adj[j])[Edge(i, d)]
    requires multiset(adj'[i]) == multiset(adj[i]) + AddedEntries(i, s, t, w)
    requires multiset(adj'[j]) == multiset(adj[j]) + AddedEntries(j, s, t, w)
    ensures multiset(adj'[i])[Edge(j, d)] == multiset(adj'[j])[Edge(i, d)]
  {
    assert AddedEntries(i, s, t, w)[Edge(j, d)] == AddedEntries(j, s, t, w)[Edge(i, d)];
  }

  /* ----------------------------------------------------------------------
     Lookups
     ---------------------------------------------------------------------- */

  predicate HasStation(g: Graph, name: string) {
    name in g.indices
  }

  /** The index of the last station added under `name`, or -1. */
  function GetStationIndex(g: Graph, name: string): (r: int)
    requires WellFormed(g)
    ensures r == -1 <==> !HasStation(g, name)
    ensures r != -1 ==> 0 <= r < NumVertices(g) && g.stations[r].name == name
    ensures r != -1 ==> forall j :: r < j < NumVertices(g) ==> g.stations[j].name != name
  {
    if name in g.indices then g.indices[name] else -1
  }

  /** The station at `index`, or a station with empty name and line when the
      index is out of range. */
  function GetStation(g: Graph, index: int): (s: Station)
    ensures 0 <= index < NumVertices(g) ==> s == g.stations[index]
    ensures !(0 <= index < NumVertices(g)) ==> s == Station("", "")
  {
    if 0 <= index < |g.stations| then g.stations[index] else Station("", "")
  }

  /** The station names in insertion order. */
  function GetAllStations(g: Graph): (names: seq<string>)
    ensures |names| == NumVertices(g)
    ensures forall i :: 0 <= i < |names| ==> names[i] == GetStation(g, i).name
  {
    seq(|g.stations|, i requires 0 <= i < |g.stations| => g.stations[i].name)
  }

  /** Every station name is known, and adding a station appends exactly its
      name to the listing. */
  lemma {:induction false} AllStationsAreKnown(g: Graph, name: string, line: string)
    requires WellFormed(g)
    ensures forall nm :: nm in GetAllStations(g) ==> HasStation(g, nm)
    ensures GetAllStations(AddStation(g, name, line)) == GetAllStations(g) + [name]
  {
    var g' := AddStation(g, name, line);
    forall nm | nm in GetAllStations(g) ensures HasStation(g, nm) {
      var i :| 0 <= i < |GetAllStations(g)| && GetAllStations(g)[i] == nm;
      assert g.stations[i].name == nm;
    }
    assert forall i :: 0 <= i < NumVertices(g) ==> g'.stations[i] == g.stations[i];
  }

  /** A name is known exactly when it appears in the listing of stations. */
  lemma HasStationIffListed(g: Graph, nm: string)
    requires WellFormed(g)
    ensures HasStation(g, nm) <==> nm in GetAllStations(g)
  {
    if HasStation(g, nm) {
      var r := GetStationIndex(g, nm);
      assert GetAllStations(g)[r] == nm;
    }
    AllStationsAreKnown(g, nm, "");
  }

  /** Looking a station up by the index its name maps to gives the last
      station added under that name, and the empty station for an unknown
      name. */
  lemma StationByName(g: Graph, nm: string)
    requires WellFormed(g)
    ensures HasStation(g, nm) ==> GetStation(g, GetStationIndex(g, nm)).name == nm
    ensures HasStation(g, nm) ==>
              forall j :: GetStationIndex(g, nm) < j < NumVertices(g) ==> GetStation(g, j).name != nm
    ensures !HasStation(g, nm) ==> GetStation(g, GetStationIndex(g, nm)) == Station("", "")
  {
  }

  /** Building a network station by station: the index of a name is the
      position of its last occurrence in the list of names added. */
  lemma {:induction false} IndexIsLastOccurrence(g: Graph, name: string)
    requires WellFormed(g)
    requires HasStation(g, name)
    ensures var r := GetStationIndex(g, name);
            GetAllStations(g)[r] == name && name !in GetAllStations(g)[r + 1..]
  {
    var r := GetStationIndex(g, name);
    var names := GetAllStations(g);
    assert names[r] == g.stations[r].name;
    var rest := names[r + 1..];
    forall k | 0 <= k < |rest| ensures rest[k] != name {
      assert rest[k] == g.stations[r + 1 + k].name;
    }
  }

  /* ----------------------------------------------------------------------
     Fare and travel time
     ---------------------------------------------------------------------- */

  /** calculateFare: a step function of the trip distance in kilometres. */
  function CalculateFare(distance: int): (fare: int)
    ensures 0 <= fare <= 60 && fare % 10 == 0
    ensures fare == 0 <==> distance <= 0
    ensures fare == 60 <==> distance > 32
  {
    if distance <= 0 then 0
    else if distance <= 2 then 10
    else if distance <= 5 then 20
    else if distance <= 12 then 30
    else if distance <= 21 then 40
    else if distance <= 32 then 50
    else 60
  }

  /** The fare table as data: (largest distance of the bracket, fare). A
      distance belongs to the first bracket whose bound it does not exceed. */
  const FareBrackets: seq<(int, int)> :=
    [(0, 0), (2, 10), (5, 20), (12, 30), (21, 40), (32, 50)]

  const FareBeyondTable: int := 60

  function TableFare(distance: int, brackets: seq<(int, int)>): int {
    if |brackets| == 0 then FareBeyondTable
    else if distance <= brackets[0].0 then brackets[0].1
    else TableFare(distance, brackets[1..])
  }

  /** The fare agrees with the bracket table, with every bound belonging to
      the lower bracket. */
  lemma FareMatchesTable(distance: int)
    ensures CalculateFare(distance) == TableFare(distance, FareBrackets)
  {
    var b := FareBrackets;
    assert b[6..] == [];
    assert b[5..][1..] == b[6..];
    assert TableFare(distance, b[5..]) == if distance <= 32 then 50 else 60;
    assert b[4..][1..] == b[5..];
    assert TableFare(distance, b[4..]) == if distance <= 21 then 40 else TableFare(distance, b[5..]);
    assert b[3..][1..] == b[4..];
    assert TableFare(distance, b[3..]) == if distance <= 12 then 30 else TableFare(distance, b[4..]);
    assert b[2..][1..] == b[3..];
    assert TableFare(distance, b[2..]) == if distance <= 5 then 20 else TableFare(distance, b[3..]);
    assert b[1..][1..] == b[2..];
    assert TableFare(distance, b[1..]) == if distance <= 2 then 10 else TableFare(distance, b[2..]);
  }

  /** A longer trip never costs less. */
  lemma FareIsMonotone(d1: int, d2: int)
    requires d1 <= d2
    ensures CalculateFare(d1) <= CalculateFare(d2)
  {
  }

  /** The bracket boundaries. */
  lemma FareBoundaries()
    ensures CalculateFare(-5) == 0 && CalculateFare(0) == 0
    ensures CalculateFare(2) == 10 && CalculateFare(3) == 20
    ensures CalculateFare(5) == 20 && CalculateFare(6) == 30
    ensures CalculateFare(32) == 50 && CalculateFare(33) == 60
  {
  }

  /** estimateTravelTime: round(distance * 1.5 + changes * 2) with std::round,
      which rounds halves away from zero. Working in half-minutes keeps the
      computation in integers: 2 * (distance * 1.5 + changes * 2) is
      3 * distance + 4 * changes. */
  function EstimateTravelTime(distance: int, changes: int): (minutes: int)
    ensures var halves := 3 * distance + 4 * changes;
            && -1 <= 2 * minutes - halves <= 1
            && (2 * minutes - halves == 1 ==> halves > 0)
            && (2 * minutes - halves == -1 ==> halves < 0)
  {
    var halves := 3 * distance + 4 * changes;
    if halves >= 0 then (halves + 1) / 2 else -((-halves + 1) / 2)
  }
}

=== FILE: heap.dfy ===
/** The indexed binary min-heap that drives the shortest-path search.

    A heap is an array of (distance, vertex) entries laid out as a binary tree
    (slot i has children 2i+1 and 2i+2) together with a `positions` table that
    maps every vertex of the graph to its slot, or to -1 when the vertex has no
    live entry. The heap is a value: every operation returns the new heap. */
module MinHeaps {
  import opened Results

  /** The largest 32-bit signed integer, returned as the distance of a vertex
      that is not in the heap. */
  const IntMax: int := 0x7fff_ffff

  /** The sentinel stored in `positions` for a vertex without a live entry. */
  const Absent: int := -1

  datatype Entry = Entry(key: int, vertex: int)

  datatype MinHeap = MinHeap(entries: seq<Entry>, positions: seq<int>)

  /** The three runtime errors the heap raises. */
  datatype HeapError =
    | HeapEmpty        // extractMin on a heap without entries
    | VertexNotInHeap  // decreaseKey on a vertex without a live entry
    | KeyIncrease      // decreaseKey with a key larger than the current one

  /* ----------------------------------------------------------------------
     Tree shape
     ---------------------------------------------------------------------- */

  /** The parent slot. The C++ program computes `(i - 1) / 2` with C++ division,
      which truncates toward zero, so the parent of the root is the root. */
  function Parent(i: nat): (p: nat)
    ensures i == 0 ==> p == 0
    ensures i > 0 ==> p < i && (i == 2 * p + 1 || i == 2 * p + 2)
  {
    if i == 0 then 0 else (i - 1) / 2
  }

  function LeftChild(i: nat): (c: nat)
    ensures c > 0 && Parent(c) == i && c % 2 == 1
  {
    2 * i + 1
  }

  function RightChild(i: nat): (c: nat)
    ensures c > 0 && Parent(c) == i && c % 2 == 0
  {
    2 * i + 2
  }

  /** Every slot other than the root has one of the two children positions of
      its parent, and the children of a slot are exactly its two child slots. */
  lemma ChildrenOfParent(i: nat, c: nat)
    requires c > 0
    ensures Parent(c) == i <==> c == LeftChild(i) || c == RightChild(i)
  {
  }

  /* ----------------------------------------------------------------------
     Invariants
     ---------------------------------------------------------------------- */

  /** The two-way link between slots and the positions table: the entry in
      slot i names a vertex whose position is i, and a vertex whose position
      is not -1 sits in the slot its position names. */
  ghost predicate Consistent(h: MinHeap) {
    && (forall i :: 0 <= i < |h.entries| ==>
          0 <= h.entries[i].vertex < |h.positions| && h.positions[h.entries[i].vertex] == i)
    && (forall v :: 0 <= v < |h.positions| ==>
          h.positions[v] == Absent ||
          (0 <= h.positions[v] < |h.entries| && h.entries[h.positions[v]].vertex == v))
  }

  /** The heap-order property: no slot holds a key smaller than its parent's. */
  ghost predicate HeapOrdered(e: seq<Entry>) {
    forall i :: 0 < i < |e| ==> e[Parent(i)].key <= e[i].key
  }

  ghost predicate Valid(h: MinHeap) {
    Consistent(h) && HeapOrdered(h.entries)
  }

  /** Heap order everywhere except on the edge from slot j up to its parent;
      and the parent of j is no larger than the children of j. This is what
      holds while an entry whose key went down is moved up. */
  ghost predicate OrderedExceptUp(e: seq<Entry>, j: nat) {
    && (forall k :: 0 < k < |e| && k != j ==> e[Parent(k)].key <= e[k].key)
    && (0 < j < |e| ==>
          forall k :: 0 < k < |e| && Parent(k) == j ==> e[Parent(j)].key <= e[k].key)
  }

  /** Heap order everywhere except on the edges from slot i down to its
      children; and the parent of i is no larger than the children of i. This
      is what holds while an entry whose key went up is moved down. */
  ghost predicate OrderedExceptDown(e: seq<Entry>, i: nat) {
    && (forall k :: 0 < k < |e| && Parent(k) != i ==> e[Parent(k)].key <= e[k].key)
    && (0 < i < |e| ==>
          forall k :: 0 < k < |e| && Parent(k) == i ==> e[Parent(i)].key <= e[k].key)
  }

  /** The abstract content of a heap: each live vertex with its key. */
  ghost function Contents(h: MinHeap): map<int, int>
    requires Consistent(h)
  {
    map v | 0 <= v < |h.positions| && h.positions[v] != Absent :: h.entries[h.positions[v]].key
  }

  /* ----------------------------------------------------------------------
     Queries
     ---------------------------------------------------------------------- */

  /** A fresh heap able to hold the vertices 0 .. maxSize-1. */
  function NewHeap(maxSize: nat): (h: MinHeap)
    ensures Valid(h) && |h.positions| == maxSize && |h.entries| == 0
    ensures Contents(h) == map[]
  {
    MinHeap([], seq(maxSize, _ => Absent))
  }

  predicate IsEmpty(h: MinHeap) {
    |h.entries| == 0
  }

  /** Out-of-range vertices are simply not contained. */
  predicate Contains(h: MinHeap, v: int) {
    0 <= v < |h.positions| && h.positions[v] != Absent
  }

  function GetDistance(h: MinHeap, v: int): int
    requires Consistent(h)
  {
    if !Contains(h, v) then IntMax else h.entries[h.positions[v]].key
  }

  /** A heap is empty exactly when no vertex is contained. */
  lemma IsEmptyIffNoVertex(h: MinHeap)
    requires Consistent(h)
    ensures IsEmpty(h) <==> forall v :: !Contains(h, v)
    ensures IsEmpty(h) <==> Contents(h) == map[]
  {
    if !IsEmpty(h) {
      var v := h.entries[0].vertex;
      assert Contains(h, v);
      assert v in Contents(h);
    } else {
      assert forall v :: !Contains(h, v);
    }
  }

  /** A vertex is contained exactly when some slot holds an entry for it, and
      then its distance is that entry's key; otherwise the distance is IntMax. */
  lemma ContainsIffStored(h: MinHeap, v: int)
    requires Consistent(h)
    ensures Contains(h, v) <==> exists i :: 0 <= i < |h.entries| && h.entries[i].vertex == v
    ensures Contains(h, v) <==> v in Contents(h)
    ensures forall i :: 0 <= i < |h.entries| && h.entries[i].vertex == v ==>
              GetDistance(h, v) == h.entries[i].key
    ensures !Contains(h, v) ==> GetDistance(h, v) == IntMax
  {
    if exists i :: 0 <= i < |h.entries| && h.entries[i].vertex == v {
      var i :| 0 <= i < |h.entries| && h.entries[i].vertex == v;
      assert h.positions[v] == i;
    }
  }

  /** The root holds a smallest key of an ordered heap. */
  lemma {:induction false} RootIsMin(e: seq<Entry>, i: nat)
    requires HeapOrdered(e)
    requires i < |e|
    ensures e[0].key <= e[i].key
    decreases i
  {
    if i > 0 {
      RootIsMin(e, Parent(i));
    }
  }

  /* ----------------------------------------------------------------------
     Swapping two slots
     ---------------------------------------------------------------------- */

  /** Exchanges the entries in slots a and b and then records the new slot of
      each moved vertex, first the one now at a, then the one now at b. */
  function Swap(h: MinHeap, a: nat, b: nat): (r: MinHeap)
    requires Consistent(h)
    requires a < |h.entries| && b < |h.entries| && a != b
    ensures Consistent(r) && Contents(r) == Contents(h)
    ensures |r.entries| == |h.entries| && |r.positions| == |h.positions|
  {
    var ea := h.entries[a];
    var eb := h.entries[b];
    var r := MinHeap(h.entries[a := eb][b := ea], h.positions[eb.vertex := a][ea.vertex := b]);
    SwapKeepsContents(h, a, b, r);
    r
  }

  lemma SwapKeepsContents(h: MinHeap, a: nat, b: nat, r: MinHeap)
    requires Consistent(h)
    requires a < |h.entries| && b < |h.entries| && a != b
    requires r.entries == h.entries[a := h.entries[b]][b := h.entries[a]]
    requires r.positions ==
             h.positions[h.entries[b].vertex := a][h.entries[a].vertex := b]
    ensures Consistent(r) && Contents(r) == Contents(h)
  {
    var ea := h.entries[a];
    var eb := h.entries[b];
    assert ea.vertex != eb.vertex;
    forall v | 0 <= v < |h.positions|
      ensures r.positions[v] == Absent ||
              (0 <= r.positions[v] < |r.entries| && r.entries[r.positions[v]].vertex == v)
      ensures (r.positions[v] != Absent) == (h.positions[v] != Absent)
      ensures r.positions[v] != Absent ==>
              r.entries[r.positions[v]].key == h.entries[h.positions[v]].key
    {
      if v != ea.vertex && v != eb.vertex && h.positions[v] != Absent {
        assert h.positions[v] != a && h.positions[v] != b;
      }
    }
    assert Consistent(r);
    assert Contents(r) == Contents(h);
  }

  /* ----------------------------------------------------------------------
     Moving an entry up or down
     ---------------------------------------------------------------------- */

  /** The sift-up loop shared by insert and decreaseKey: starting from slot i,
      while the entry there is smaller than its parent, swap the two and
      continue from the parent. */
  method SiftUp(h: MinHeap, i: nat) returns (r: MinHeap)
    requires Consistent(h) && i < |h.entries|
    ensures Consistent(r) && Contents(r) == Contents(h)
    ensures |r.entries| == |h.entries| && |r.positions| == |h.positions|
    ensures OrderedExceptUp(h.entries, i) ==> HeapOrdered(r.entries)
  {
    ghost var ordered := OrderedExceptUp(h.entries, i);
    r := h;
    var j: nat := i;
    while j > 0 && r.entries[j].key < r.entries[Parent(j)].key
      invariant Consistent(r) && Contents(r) == Contents(h)
      invariant |r.entries| == |h.entries| && |r.positions| == |h.positions|
      invariant j < |r.entries|
      invariant ordered ==> OrderedExceptUp(r.entries, j)
      decreases j
    {
      var p := Parent(j);
      ghost var before := r.entries;
      r := Swap(r, j, p);
      if ordered {
        SwapUpKeepsOrder(before, r.entries, j, p);
      }
      j := p;
    }
  }

  lemma SwapUpKeepsOrder(e: seq<Entry>, e': seq<Entry>, j: nat, p: nat)
    requires 0 < j < |e| && p == Parent(j)
    requires e[j].key < e[p].key
    requires e' == e[j := e[p]][p := e[j]]
    requires OrderedExceptUp(e, j)
    ensures OrderedExceptUp(e', p)
  {
    forall k | 0 < k < |e'| && k != p
      ensures e'[Parent(k)].key <= e'[k].key
    {
      if k == j {
      } else if Parent(k) == j {
        assert e[Parent(j)].key <= e[k].key;
      } else if Parent(k) == p {
        assert e[p].key <= e[k].key;
      }
    }
    if 0 < p {
      forall k | 0 < k < |e'| && Parent(k) == p
        ensures e'[Parent(p)].key <= e'[k].key
      {
        assert e[Parent(p)].key <= e[p].key;
      }
    }
  }

  /** heapify: if a child of slot i is smaller, swap i with its smallest
      child and continue from that child. */
  method Heapify(h: MinHeap, i: nat) returns (r: MinHeap)
    requires Consistent(h) && i < |h.entries|
    ensures Consistent(r) && Contents(r) == Contents(h)
    ensures |r.entries| == |h.entries| && |r.positions| == |h.positions|
    ensures OrderedExceptDown(h.entries, i) ==> HeapOrdered(r.entries)
    decreases |h.entries| - i
  {
    var size := |h.entries|;
    var smallest := i;
    var left := LeftChild(i);
    var right := RightChild(i);
    if left < size && h.entries[left].key < h.entries[smallest].key {
      smallest := left;
    }
    if right < size && h.entries[right].key < h.entries[smallest].key {
      smallest := right;
    }
    SmallestOfFamily(h.entries, i, smallest);
    if smallest != i {
      var swapped := Swap(h, i, smallest);
      if OrderedExceptDown(h.entries, i) {
        SwapDownKeepsOrder(h.entries, swapped.entries, i, smallest);
      }
      r := Heapify(swapped, smallest);
    } else {
      r := h;
      if OrderedExceptDown(h.entries, i) {
        InPlaceIsOrdered(h.entries, i);
      }
    }
  }

  /** The slot heapify picks among i and its children holds the smallest key
      of the three, and is a child of i when it is not i itself. */
  lemma SmallestOfFamily(e: seq<Entry>, i: nat, s: nat)
    requires i < |e| && s < |e|
    requires s == i || s == LeftChild(i) || s == RightChild(i)
    requires e[s].key <= e[i].key
    requires LeftChild(i) < |e| ==> e[s].key <= e[LeftChild(i)].key
    requires RightChild(i) < |e| ==> e[s].key <= e[RightChild(i)].key
    ensures s != i ==> Parent(s) == i && i < s
    ensures forall k :: 0 < k < |e| && Parent(k) == i ==> e[s].key <= e[k].key
  {
    forall k | 0 < k < |e| && Parent(k) == i ensures e[s].key <= e[k].key {
      ChildrenOfParent(i, k);
    }
  }

  /** A slot no larger than its children, in an otherwise ordered tree,
      leaves the whole tree ordered. */
  lemma InPlaceIsOrdered(e: seq<Entry>, i: nat)
    requires i < |e| && OrderedExceptDown(e, i)
    requires forall k :: 0 < k < |e| && Parent(k) == i ==> e[i].key <= e[k].key
    ensures HeapOrdered(e)
  {
  }

  lemma SwapDownKeepsOrder(e: seq<Entry>, e': seq<Entry>, i: nat, s: nat)
    requires s < |e| && Parent(s) == i && i < s
    requires e[s].key < e[i].key
    requires forall k :: 0 < k < |e| && Parent(k) == i ==> e[s].key <= e[k].key
    requires e' == e[i := e[s]][s := e[i]]
    requires OrderedExceptDown(e, i)
    ensures OrderedExceptDown(e', s)
  {
    forall k | 0 < k < |e'| && Parent(k) != s
      ensures e'[Parent(k)].key <= e'[k].key
    {
      if k == i {
        assert e[Parent(i)].key <= e[s].key;
      }
    }
    forall k | 0 < k < |e'| && Parent(k) == s
      ensures e'[Parent(s)].key <= e'[k].key
    {
      assert Parent(k) != i;
    }
  }

  /* ----------------------------------------------------------------------
     Public operations
     ---------------------------------------------------------------------- */

  /** insert doubles as an update: a contained vertex gets its key
      overwritten and is only sifted up; an absent vertex is appended and
      sifted up. */
  method Insert(h: MinHeap, v: int, key: int) returns (r: MinHeap)
    requires Consistent(h)
    requires 0 <= v < |h.positions|
    ensures Consistent(r) && |r.positions| == |h.positions|
    ensures Contents(r) == Contents(h)[v := key]
    ensures v !in Contents(h) ==> |r.entries| == |h.entries| + 1
    ensures v in Contents(h) ==> |r.entries| == |h.entries|
    ensures HeapOrdered(h.entries) && (v in Contents(h) ==> key <= Contents(h)[v]) ==>
              HeapOrdered(r.entries)
  {
    if Contains(h, v) {
      var i := h.positions[v];
      var updated := SetKey(h, i, key);
      r := SiftUp(updated, i);
    } else {
      var e := h.entries + [Entry(key, v)];
      var appended := MinHeap(e, h.positions[v := |h.entries|]);
      assert Consistent(appended) by {
        forall u | 0 <= u < |h.positions| && u != v && h.positions[u] != Absent
          ensures h.positions[u] < |h.entries|
        {
        }
      }
      assert Contents(appended) == Contents(h)[v := key];
      assert HeapOrdered(h.entries) ==> OrderedExceptUp(e, |h.entries|);
      r := SiftUp(appended, |h.entries|);
    }
  }

  /** Overwrites the key in slot i, keeping its vertex; on a heap in order,
      the result is ordered except above i when the key did not go up. */
  function SetKey(h: MinHeap, i: nat, key: int): (r: MinHeap)
    requires Consistent(h) && i < |h.entries|
    ensures Consistent(r) && |r.entries| == |h.entries| && |r.positions| == |h.positions|
    ensures Contents(r) == Contents(h)[h.entries[i].vertex := key]
    ensures HeapOrdered(h.entries) && key <= h.entries[i].key ==> OrderedExceptUp(r.entries, i)
  {
    var r := MinHeap(h.entries[i := Entry(key, h.entries[i].vertex)], h.positions);
    assert Contents(r) == Contents(h)[h.entries[i].vertex := key];
    r
  }

  /** extractMin: the root is returned; the last entry moves into the root
      slot, the array shrinks by one, the positions of the moved and the
      removed vertex are updated, and the root is sifted down. */
  method ExtractMin(h: MinHeap) returns (r: Result<(Entry, MinHeap), HeapError>)
    requires Consistent(h)
    ensures r.Failure? <==> |h.entries| == 0
    ensures r.Failure? ==> r.error == HeapEmpty
    ensures r.Success? ==>
              var (top, h') := r.value;
              && Consistent(h') && |h'.positions| == |h.positions|
              && |h'.entries| == |h.entries| - 1
              && top.vertex in Contents(h) && Contents(h)[top.vertex] == top.key
              && Contents(h') == Contents(h) - {top.vertex}
              && (HeapOrdered(h.entries) ==>
                    HeapOrdered(h'.entries) &&
                    forall u :: u in Contents(h) ==> top.key <= Contents(h)[u])
  {
    if IsEmpty(h) {
      return Failure(HeapEmpty);
    }
    var size := |h.entries|;
    var root := h.entries[0];
    var last := h.entries[size - 1];
    var positions := h.positions[last.vertex := 0][root.vertex := Absent];
    var shrunk := MinHeap(h.entries[0 := last][..size - 1], positions);
    ExtractKeepsConsistent(h, shrunk);
    ExtractKeepsContents(h, shrunk);
    if HeapOrdered(h.entries) {
      ExtractKeepsOrder(h, shrunk);
    }
    var h' := shrunk;
    if size - 1 > 0 {
      h' := Heapify(shrunk, 0);
    }
    if HeapOrdered(h.entries) {
      forall u | u in Contents(h) ensures root.key <= Contents(h)[u] {
        RootIsMin(h.entries, h.positions[u]);
      }
    }
    return Success((root, h'));
  }

  /** The heap left by extractMin before sifting: the last entry moved to the
      root slot and the array one shorter, with the positions of the moved and
      the removed vertex updated. */
  ghost predicate RootReplaced(h: MinHeap, r: MinHeap)
    requires Consistent(h) && |h.entries| > 0
  {
    var last := h.entries[|h.entries| - 1];
    && r.entries == h.entries[0 := last][..|h.entries| - 1]
    && r.positions == h.positions[last.vertex := 0][h.entries[0].vertex := Absent]
  }

  /** Vertex by vertex: the removed vertex is absent, every other vertex keeps
      its key, and the moved one now sits at the root. */
  lemma ExtractPositions(h: MinHeap, r: MinHeap)
    requires Consistent(h) && |h.entries| > 0 && RootReplaced(h, r)
    ensures forall v :: 0 <= v < |h.positions| ==>
              && (r.positions[v] == Absent ||
                  (0 <= r.positions[v] < |r.entries| && r.entries[r.positions[v]].vertex == v))
              && ((r.positions[v] != Absent) == (h.positions[v] != Absent && v != h.entries[0].vertex))
              && (r.positions[v] != Absent ==>
                    r.entries[r.positions[v]].key == h.entries[h.positions[v]].key)
  {
    forall v | 0 <= v < |h.positions|
      ensures r.positions[v] == Absent ||
              (0 <= r.positions[v] < |r.entries| && r.entries[r.positions[v]].vertex == v)
      ensures (r.positions[v] != Absent) == (h.positions[v] != Absent && v != h.entries[0].vertex)
      ensures r.positions[v] != Absent ==>
              r.entries[r.positions[v]].key == h.entries[h.positions[v]].key
    {
    }
  }

  lemma ExtractKeepsConsistent(h: MinHeap, r: MinHeap)
    requires Consistent(h) && |h.entries| > 0 && RootReplaced(h, r)
    ensures Consistent(r)
  {
    ExtractPositions(h, r);
  }

  lemma ExtractKeepsContents(h: MinHeap, r: MinHeap)
    requires Consistent(h) && |h.entries| > 0 && RootReplaced(h, r) && Consistent(r)
    ensures Contents(r) == Contents(h) - {h.entries[0].vertex}
  {
    ExtractPositions(h, r);
  }

  lemma ExtractKeepsOrder(h: MinHeap, r: MinHeap)
    requires Consistent(h) && |h.entries| > 0 && RootReplaced(h, r) && HeapOrdered(h.entries)
    ensures OrderedExceptDown(r.entries, 0)
  {
  }

  /** decreaseKey: fails without any change when the vertex is absent or the
      new key is larger; an equal key is accepted. On success the key is
      overwritten and the entry sifted up. */
  method DecreaseKey(h: MinHeap, v: int, newKey: int) returns (r: Result<MinHeap, HeapError>)
    requires Consistent(h)
    ensures !Contains(h, v) ==> r == Failure(VertexNotInHeap)
    ensures Contains(h, v) && newKey > GetDistance(h, v) ==> r == Failure(KeyIncrease)
    ensures r.Success? <==> Contains(h, v) && newKey <= GetDistance(h, v)
    ensures r.Success? ==>
              && Consistent(r.value) && |r.value.positions| == |h.positions|
              && |r.value.entries| == |h.entries|
              && Contents(r.value) == Contents(h)[v := newKey]
              && (HeapOrdered(h.entries) ==> HeapOrdered(r.value.entries))
  {
    if !Contains(h, v) {
      return Failure(VertexNotInHeap);
    }
    var i := h.positions[v];
    if newKey > h.entries[i].key {
      return Failure(KeyIncrease);
    }
    var updated := SetKey(h, i, newKey);
    var h' := SiftUp(updated, i);
    return Success(h');
  }
}

=== FILE: results.dfy ===
/** The outcome of an operation that throws in the C++ program:
    either the value it produced or the error it raised. */
module Results {

  datatype Result<+T, +E> = Success(value: T) | Failure(error: E)
}

=== FILE: walks.dfy ===
/** Walks through the metro network: the reference notion against which the
    shortest-path search is judged. A walk is a sequence of stations together
    with the distance of the adjacency entry taken at each step, so parallel
    connections with different distances give different walks. */
module Walks {
  import opened Graphs

  /** The total of a list of distances. */
  function Sum(ws: seq<int>): int {
    if |ws| == 0 then 0 else Sum(ws[..|ws| - 1]) + ws[|ws| - 1]
  }

  /** `vs` visits stations of g, and each step from vs[i] to vs[i+1] uses an
      adjacency entry of vs[i] whose distance is ws[i]. */
  ghost predicate IsWalk(g: Graph, vs: seq<int>, ws: seq<int>) {
    && |vs| == |ws| + 1
    && (forall i :: 0 <= i < |vs| ==> 0 <= vs[i] < |g.adjacency|)
    && (forall i :: 0 <= i < |ws| ==> Edge(vs[i + 1], ws[i]) in g.adjacency[vs[i]])
  }

  ghost predicate WalkFromTo(g: Graph, vs: seq<int>, ws: seq<int>, a: int, b: int) {
    IsWalk(g, vs, ws) && vs[0] == a && vs[|vs| - 1] == b
  }

  ghost predicate Reachable(g: Graph, a: int, b: int) {
    exists vs, ws :: WalkFromTo(g, vs, ws, a, b)
  }

  lemma {:induction false} SumAppend(a: seq<int>, b: seq<int>)
    ensures Sum(a + b) == Sum(a) + Sum(b)
    decreases |b|
  {
    if |b| > 0 {
      var b' := b[..|b| - 1];
      assert (a + b)[..|a + b| - 1] == a + b';
      SumAppend(a, b');
    } else {
      assert a + b == a;
    }
  }

  /** With no negative distances, a prefix of a walk is never longer than the
      walk, and no walk has a negative length. */
  lemma {:induction false} PrefixSumBounded(ws: seq<int>, k: nat)
    requires forall i :: 0 <= i < |ws| ==> ws[i] >= 0
    requires k <= |ws|
    ensures 0 <= Sum(ws[..k]) <= Sum(ws)
    decreases |ws|
  {
    if k < |ws| {
      var ws' := ws[..|ws| - 1];
      assert ws'[..k] == ws[..k];
      PrefixSumBounded(ws', k);
    } else {
      assert ws[..k] == ws;
      if |ws| > 0 {
        PrefixSumBounded(ws[..|ws| - 1], |ws| - 1);
        assert ws[..|ws| - 1][..|ws| - 1] == ws[..|ws| - 1];
      }
    }
  }

  /** Every step of a walk in a network without negative distances has a
      non-negative distance. */
  lemma StepsNonNegative(g: Graph, vs: seq<int>, ws: seq<int>)
    requires NonNegativeWeights(g) && IsWalk(g, vs, ws)
    ensures forall i :: 0 <= i < |ws| ==> ws[i] >= 0
  {
    forall i | 0 <= i < |ws| ensures ws[i] >= 0 {
      var e := Edge(vs[i + 1], ws[i]);
      assert e in g.adjacency[vs[i]];
      var j :| 0 <= j < |g.adjacency[vs[i]]| && g.adjacency[vs[i]][j] == e;
    }
  }

  /** Two walks meeting at a station combine into one whose length is the
      sum of theirs. */
  lemma Concatenate(g: Graph, vs1: seq<int>, ws1: seq<int>, vs2: seq<int>, ws2: seq<int>)
    requires IsWalk(g, vs1, ws1) && IsWalk(g, vs2, ws2)
    requires vs1[|vs1| - 1] == vs2[0]
    ensures IsWalk(g, vs1 + vs2[1..], ws1 + ws2)
    ensures Sum(ws1 + ws2) == Sum(ws1) + Sum(ws2)
  {
    var vs := vs1 + vs2[1..];
    var ws := ws1 + ws2;
    forall i | 0 <= i < |ws| ensures Edge(vs[i + 1], ws[i]) in g.adjacency[vs[i]] {
      if i < |ws1| {
        assert vs[i] == vs1[i] && ws[i] == ws1[i] && vs[i + 1] == vs1[i + 1];
      } else {
        var k := i - |ws1|;
        assert ws[i] == ws2[k] && vs[i] == vs2[k] && vs[i + 1] == vs2[k + 1];
      }
    }
    SumAppend(ws1, ws2);
  }

  /** Every station reaches itself by the walk of length zero. */
  lemma StayingPut(g: Graph, a: int)
    requires 0 <= a < |g.adjacency|
    ensures WalkFromTo(g, [a], [], a, a) && Sum([]) == 0
  {
  }

  function Reverse<T>(s: seq<T>): (r: seq<T>)
    ensures |r| == |s|
    ensures forall i :: 0 <= i < |s| ==> r[i] == s[|s| - 1 - i]
  {
    if |s| == 0 then [] else [s[|s| - 1]] + Reverse(s[..|s| - 1])
  }

  lemma {:induction false} SumReverse(ws: seq<int>)
    ensures Sum(Reverse(ws)) == Sum(ws)
    decreases |ws|
  {
    if |ws| > 0 {
      var init := ws[..|ws| - 1];
      SumReverse(init);
      SumAppend([ws[|ws| - 1]], Reverse(init));
      assert Sum([ws[|ws| - 1]]) == ws[|ws| - 1] by {
        assert [ws[|ws| - 1]][..0] == [];
      }
    }
  }

  /** In a network whose connections are stored both ways, a walk taken
      backwards is a walk of the same length. */
  lemma ReverseWalk(g: Graph, vs: seq<int>, ws: seq<int>)
    requires Undirected(g.adjacency) && IsWalk(g, vs, ws)
    ensures IsWalk(g, Reverse(vs), Reverse(ws))
    ensures Sum(Reverse(ws)) == Sum(ws)
  {
    forall k | 0 <= k < |ws| ensures Edge(Reverse(vs)[k + 1], Reverse(ws)[k]) in g.adjacency[Reverse(vs)[k]] {
      ReverseStep(g, vs, ws, k);
    }
    SumReverse(ws);
  }

  /** Step k of the reversed walk is step |ws|-1-k of the walk, taken the
      other way. */
  lemma ReverseStep(g: Graph, vs: seq<int>, ws: seq<int>, k: int)
    requires Undirected(g.adjacency) && IsWalk(g, vs, ws)
    requires 0 <= k < |ws|
    ensures Edge(Reverse(vs)[k + 1], Reverse(ws)[k]) in g.adjacency[Reverse(vs)[k]]
  {
    var i := |ws| - 1 - k;
    var x, y, w := vs[i], vs[i + 1], ws[i];
    assert Edge(y, w) in g.adjacency[x];
    MirrorEntry(g.adjacency, x, y, w);
    assert Reverse(vs)[k] == y && Reverse(vs)[k + 1] == x && Reverse(ws)[k] == w;
  }

  /** An entry from x to y has its mirror image from y to x. */
  lemma MirrorEntry(adj: seq<seq<Edge>>, x: int, y: int, w: int)
    requires Undirected(adj) && 0 <= x < |adj| && 0 <= y < |adj|
    requires Edge(y, w) in adj[x]
    ensures Edge(x, w) in adj[y]
  {
    assert Edge(y, w) in multiset(adj[x]);
    assert multiset(adj[x])[Edge(y, w)] == multiset(adj[y])[Edge(x, w)];
  }
}
